=== FILE: README.md ===
# Permission gate and user store of an admin backend, in Dafny

This project models the core of a FastAPI/SQLAlchemy admin backend:

- the permission model. Routes carry a three-tier declaration (menus, interfaces, buttons) of enum-backed permission codes. The declaration is serialised into the route's OpenAPI metadata and rebuilt from it at request time.
- the two request gates: the legacy `check_permission` in `common/auth.py` and the one wired into the routes in `common/depends.py`.
- the user store service: lookup by query, create, update, enable/disable and soft delete.
- pagination: field filtering, soft-delete exclusion, the default sort, offset and limit, and the `has_prev`/`has_next` flags. It also covers how query-string parameters are split into pagination fields and filters.
- the exception-to-envelope mapping done by the HTTP middleware, and the response envelope itself.
- the request and response schemas, the common column defaults, and the timestamp formatting of the output schema.

Every operation is a function or a method without side effects, over immutable values. The database session is a sequence of user rows in storage order. Side effects that the source performs on a row become a new table. The current time, the new row's UUID and the password hash come in as parameters.

Modules follow the source files:

| file | module | source |
|---|---|---|
| wrappers.dfy | `Wrappers` | `Option`/`Result` helpers |
| exceptions.dfy | `Exceptions` | common/exception.py |
| response.dfy | `Response` | common/response.py |
| middleware.dfy | `Middleware` | common/middleware.py |
| permission_enum.dfy | `PermissionEnum` | common/permission_enum.py |
| auth.dfy | `Auth` | common/auth.py |
| db.dfy | `Db` | db.py |
| user_model.dfy | `UserModel` | models/user.py |
| schemas.dfy | `UserSchemas` | schemas/user.py |
| user_service.dfy | `UserService` | services/user.py |
| pagination.dfy | `Pagination` | common/pagination.py |
| depends.dfy | `Depends` | common/depends.py |

Facts about the code that the model relies on:

- The wired gate lets a request through when the route's metadata is empty (fail-open). A route whose metadata lacks the `route_permission` key gets the all-empty declaration; it is not refused.
- The wired gate never consults the menu, interface or button tiers. `Depends.TiersNotEnforced` proves this.
- `is_require_auth` is not defined in any file of this model. It stays an uninterpreted predicate passed to the gate, so the model does not assume "some tier list is non-empty".

## Model

| member | source | states |
|---|---|---|
| Exceptions.Code | common/exception.py:1-11 | Only the two application exceptions carry a `code`: 500 for `ApiException` and 401 for `PermissionException`. |
| Exceptions.ApplicationClassesUnrelated | common/exception.py:1-11 | Neither application class is an instance of the other or of `HTTPException`. `str` of each gives back its constructor message. |
| Response.Success | common/response.py:11-12 | `success` always has code 200 and carries the given message and payload. |
| Response.Fail | common/response.py:14-16 | `fail` passes code, message and payload through unchanged. |
| Response.ConstructorDefaults | common/response.py:11-16 | With no arguments, `success()` is `{200, None, None}` and `fail()` is `{-1, None, None}`, and the two differ. |
| Middleware.CatchingClause | common/middleware.py:15-36 | The clause that handles an exception is the first one whose class matches it; no earlier clause matches. |
| Middleware.HandleExceptionMiddleware | common/middleware.py:15-36 | A normal response passes through. Every exception becomes a transport-200 envelope without payload: 401 plus the message for a permission error; the HTTP status plus "HTTP异常!" plus the detail for an HTTP error; 500 plus the message for an API error; 500 plus "未知异常,请联系管理员!" plus the text for any other subclass of `Exception`. |
| Middleware.HandleValidationException | common/middleware.py:43-49 | A request-validation error becomes a transport-200 envelope with code 501 and the error text. |
| Middleware.FailuresAreTransportOk | common/middleware.py:15-49 | Both entry points always answer transport 200, with a message and no payload. |
| PermissionEnum.AllListsEachMemberOnce | common/permission_enum.py:23-24 | The lists have 3 menu, 5 interface and 3 button entries. Every member appears exactly once, in declaration order. |
| PermissionEnum.MenuAndButtonCodesDistinct | common/permission_enum.py:29-31 | Menu codes identify menu members, and button codes identify button members. |
| PermissionEnum.InterfaceCodesCollide | common/permission_enum.py:36-40 | `USER_DEL` and `USER_ENABLE` share the code '/users/delete'; every other pair of interface members has distinct codes. |
| PermissionEnum.TierCodesDisjoint | common/permission_enum.py:29-47 | No code string belongs to two tiers. |
| Auth.TierAllows | common/auth.py:24-43 | A tier check passes exactly when the list is empty or some listed member has the code. |
| Auth.CheckMenu | common/auth.py:24-29 | `check_menu(c)` holds iff the menu list is empty or lists a member whose code is `c`. |
| Auth.CheckInterface | common/auth.py:31-36 | The same rule for the interface list. |
| Auth.CheckButton | common/auth.py:38-43 | The same rule for the button list. |
| Auth.TierChecksReadOwnListOnly | common/auth.py:24-43 | Each tier check depends on its own list only. |
| Auth.DefaultAcceptsEveryCode | common/auth.py:13-15 | A default-constructed declaration accepts every code in all three tiers. |
| Auth.EnableDeclarationAdmitsDeleteCode | common/auth.py:36 | A declaration that lists only `USER_ENABLE` still accepts interface code '/users/delete'. |
| Auth.GetExtraKey | common/auth.py:20-22 | The metadata key is 'route_permission', a name distinct from the three declaration fields. |
| Auth.ToOpenapiExtra | common/auth.py:17-22 | The metadata is a single entry under 'route_permission'. It holds a mapping with exactly the keys 'menu_list', 'interface_list' and 'buttion_list'. Each maps to a list holding the declared members of its tier, in order. |
| Auth.ParseItems | common/auth.py:13-15 | A list is accepted iff every item belongs to the field's tier. The result keeps length and order. |
| Auth.FieldList | common/auth.py:13-15 | A missing field defaults to the empty list. A field holding a non-list or a foreign item is a validation error naming the field. |
| Auth.FromKwargs | common/auth.py:11-15 | The declaration is built iff all three list fields validate, and each list is the validated field. Absent fields give the all-empty declaration. A failure names the first field that fails, in the order menu, interface, button. |
| Auth.FromOpenapiExtra | common/depends.py:42 | Metadata without the 'route_permission' key yields the all-empty declaration. A mapping under the key is validated as the constructor's keyword arguments. Any other value raises `TypeError`. |
| Auth.ParseDumpedItems | common/auth.py:13-18 | Parsing a serialised list gives the list back. |
| Auth.OpenapiExtraRoundTrip | common/auth.py:17-22 | Rebuilding a declaration from its own metadata gives the same declaration. |
| Auth.LegacyCheckPermissionAsWritten | common/auth.py:46-60 | As written, a missing route raises `AttributeError` from the debug print. With a route present, it behaves like the intended gate. |
| Auth.LegacyCheckPermission | common/auth.py:46-60 | Fail-closed. A missing route or empty metadata raises `PermissionException('没有权限')`. A malformed declaration propagates its error. Otherwise the request passes iff `check_menu('user-manage')` holds, and a failing menu check raises `PermissionException('灭有权限')`. |
| Auth.LegacyMissingRouteDiscrepancy | common/auth.py:52-54 | The two versions differ exactly on a missing route. |
| Auth.UserListRouteDeclaration | common/auth.py:24-60 | The user-list declaration admits the user menu and the list interface only, leaves buttons unrestricted, and passes the legacy gate. |
| Db.Restrict | common/pagination.py:30 | Restricting a query keeps exactly the keys that are model fields, with their values. |
| Db.NewBaseColumns | db.py:36-44 | A new row is live and enabled. Both timestamps are the insertion time, and the creator, updater and metadata are unset. |
| Db.EarlierStrictTotal | db.py:46-48 | Timestamp order is a strict total order. |
| Db.DefaultSortStrictTotal | db.py:46-48 | The default sort (utime descending, ctime descending, id ascending) is a strict order, total on rows with distinct ids. |
| Db.DefaultSortUtimeFirst | db.py:48 | A later `utime` sorts first. |
| Db.DefaultSortTieBreaks | db.py:48 | With equal `utime`, a later `ctime` sorts first; with equal `ctime` as well, the lower id sorts first. |
| Db.Insert | db.py:46-48 | Inserting into a sorted sequence keeps it sorted and adds exactly that element. |
| Db.SortByDefault | db.py:46-48 | The result is in default-sort order and is a permutation of the input. |
| Db.SortedHeadsAgree | db.py:46-48 | Two sorted permutations of distinct-id rows start with the same row. |
| Db.SortedArrangementUnique | db.py:46-48 | Distinct-id rows have only one default-sorted arrangement. |
| Db.Pad2 | db.py:71 | Two-digit fields are two characters long. |
| Db.Pad4 | db.py:71 | The year field is four characters long. |
| Db.FormatDateTime | db.py:67-71 | The text is 19 characters long, with '-', '-', ' ', ':' and ':' at the `%Y-%m-%d %H:%M:%S` separator positions. |
| Db.Pad2RoundTrip | db.py:71 | Reading a two-digit field gives the number back. |
| Db.Pad4RoundTrip | db.py:71 | Reading the year field gives the year back. |
| Db.FormatFields | db.py:71 | Year, month, day, hour, minute and second occupy their fixed `%Y-%m-%d %H:%M:%S` positions in the text. |
| Db.FormatParseRoundTrip | db.py:67-71 | Parsing the formatted text gives the timestamp truncated to whole seconds. |
| Db.FormatIdentifiesSeconds | db.py:67-71 | Two timestamps format equally iff they agree up to the second. |
| Db.FormatDatetimeField | db.py:67-71 | A non-datetime value passes through. A datetime becomes text that reads back as its whole-second truncation. |
| UserSchemas.PasswordErrors | schemas/user.py:21 | A password is accepted iff it is present and has 4 to 24 characters. Otherwise exactly one error is reported for it: missing, too short or too long. |
| UserSchemas.ValidateLogin | schemas/user.py:19-21 | A login body validates iff a name is present and the password has 4 to 24 characters. On failure exactly the failing fields are reported: a missing name, and the password's own error. |
| UserSchemas.ValidateCreate | schemas/user.py:39-48 | The same rule for name and password, with the same failure report. Every optional field is carried over unchanged. |
| UserSchemas.SchemaTimestamp | db.py:55-56 | A timestamp seen through the output schema is truncated to whole seconds. |
| UserSchemas.ToUserSchema | schemas/user.py:8-16 | Every declared field is copied from the row: id, uuid, creator, updater, enabled flag, name, nickname, gender, email, phone, avatar, address and introduction. Timestamps are truncated to whole seconds. |
| UserSchemas.UserSchemaHidesPassword | schemas/user.py:8-16 | The output does not depend on the password hash or on sub-second digits. |
| UserService.IdQuerySelects | services/user.py:66-74 | A lookup by id selects exactly the live rows with that id. |
| UserService.NameQuerySelects | services/user.py:66-74 | A lookup by name selects exactly the live rows with that name. |
| UserService.FirstSelected | services/user.py:72-73 | `.first()` returns a selected row, and no earlier row is selected; `None` means no row is selected. |
| UserService.GetObjByQuery | services/user.py:66-74 | The result is a live row of the table that agrees with every query key that is a model field. `None` means no live row matches. |
| UserService.GetObjIgnoresUnknownKeys | services/user.py:69-70 | Keys that are not model fields do not influence the lookup. |
| UserService.LiveIdFound | services/user.py:66-74 | A live row holding the id is always found by the id lookup. |
| UserService.LookupById | services/user.py:66-74 | With unique ids, a lookup by id finds a row iff a live row has that id, and then it finds exactly that row. |
| UserService.NameFree | services/user.py:62-63 | A name is free for `id` iff no live row holds it or the live row holding it has that id. |
| UserService.CheckName | services/user.py:58-63 | As written, `None` and "" pass unchecked; any other name passes iff it is free for the id. |
| UserService.CheckNameCorrected | services/user.py:58-63 | `None` passes; every given name, "" included, passes iff it is free for the id. |
| UserService.MaxId | db.py:36 | No row's id exceeds the maximum. |
| UserService.NextId | db.py:36 | An autoincrement id is positive and larger than every existing id. |
| UserService.NewUser | services/user.py:86 | `UserModel(**data.model_dump())` gives a live, enabled row. The row carries the given name and profile fields, the hashed password, the id, uuid and clock value, and gender UNKNOWN when unset. It has no creator, updater, metadata or role. |
| UserService.CreateUser | services/user.py:77-90 | Creation fails with '该用户已存在' iff a live user has that name. Otherwise exactly one new row is appended with a fresh id. The row carries the given name and optional profile fields, the hashed password, the supplied uuid and clock value, and gender UNKNOWN when unset. It is live and enabled, with no creator, updater, metadata or role. |
| UserService.DeletedNameReusable | services/user.py:79-83 | A name held only by soft-deleted users may be reused. |
| UserService.CreatePreservesInvariant | services/user.py:77-90 | Creation keeps ids unique and live names unique. |
| UserService.Commit | db.py:39 | The `onupdate` rule. A write that changes nothing leaves the stored row, `utime` included. A write that changes a column stores the new values with `utime` set to the flush time. The services never assign `utime` themselves. |
| UserService.CommitUpdateSemantics | services/user.py:46-51 | Fields whose new value is `None` stay and given fields are overwritten. Password hash, role and every base column except `utime` stay. `utime` becomes the flush time iff the row changed. |
| UserService.UpdateByIdAsWritten | services/user.py:37-63 | As written, the update agrees with the corrected one except when the new name is "". A rename to "" of a live user always succeeds, however many live users already hold "". A missing id still fails with '用户不存在'. The renamed row is written back in place with every other given field applied, as in the corrected update. |
| UserService.UpdateById | services/user.py:37-52 | A missing or deleted id fails with '用户不存在'. With unique live names, a name held by another live user fails with '用户名已存在，请换个用户名'. With unique live names, an update succeeds when the id is live and the new name is absent or held by no other live user. On success only the target row changes, as `CommitUpdateSemantics` describes, and `utime` is the flush time iff that row changed. |
| UserService.EmptyUpdateChangesNothing | services/user.py:46-51 | An update with every field `None` leaves the table unchanged. |
| UserService.UpdatePreservesInvariant | services/user.py:37-52 | A successful update keeps ids unique and live names unique. |
| UserService.ChangeStatus | services/user.py:26-34 | A missing or deleted id fails with '用户不存在'; otherwise the call succeeds. On success only the target row changes, and in it only `enable` (set to the given value) and `utime`. Setting the current value leaves the row untouched. Setting a new value stamps `utime` with the flush time. |
| UserService.ChangeStatusPreservesInvariant | services/user.py:26-34 | Changing status keeps the table invariant. |
| UserService.DeleteById | services/user.py:15-23 | A missing or deleted id fails with '用户不存在'; otherwise the call succeeds. On success only the target row changes: it becomes soft-deleted, its `utime` is the flush time, and nothing else in it changes. |
| UserService.DeletedUserNotFound | services/user.py:15-23 | After a deletion, a lookup by that id finds nothing. |
| UserService.DeletePreservesInvariant | services/user.py:15-23 | Deletion keeps the table invariant. |
| UserService.EmptyNameBreaksUniqueness | services/user.py:59-60 | On a valid table, renaming a user to "" as written succeeds and leaves two live users named "", while the corrected update refuses. |
| Pagination.SubstringIffOccurs | common/pagination.py:39 | `LIKE '%v%'` containment holds iff `v` occurs at some position. |
| Pagination.FilterHolds | common/pagination.py:39 | A string filter holds iff the column is a string in which the value occurs at some position. Any other filter holds iff the column equals it. |
| Pagination.FilterColumns | common/pagination.py:30-39 | The filters are exactly the query keys that are model fields, minus `is_delete`, with their values. |
| Pagination.FilterRows | common/pagination.py:42-47 | The filtered rows are exactly the live rows that satisfy every filter, with multiplicity. |
| Pagination.Selection | common/pagination.py:46-47 | The selection is in default-sort order and holds exactly the live matching rows. |
| Pagination.Slice | common/pagination.py:48 | `OFFSET o LIMIT n` is the contiguous run of at most `n` rows starting at `o`, or empty past the end. |
| Pagination.Paginate | common/pagination.py:26-55 | `total` counts the matching live rows. `has_prev` holds iff `page != 1`, and `has_next` iff `page*size < total`. The page is the default-sorted selection from `(page-1)*size`, at most `size` rows. |
| Pagination.PageRowIsSelectionRow | common/pagination.py:46-49 | Row `j` of page `p` is row `(p-1)*size + j` of the sorted selection, whenever the selection has that row. |
| Pagination.PagesPartitionSelection | common/pagination.py:46-49 | With positive size, row `k` of the selection is row `k % size` of page `k / size + 1`. |
| Pagination.HasNextIffNextPageNonEmpty | common/pagination.py:51 | `has_next` holds iff the next page is non-empty. |
| Pagination.QueryKeysIgnored | common/pagination.py:30-37 | Query keys that are not model fields, and `is_delete`, do not change the result. |
| Pagination.SelectionDetermined | common/pagination.py:46-47 | With distinct ids, only one sequence is sorted and holds exactly the matching rows. |
| Depends.SplitQueryParams | common/depends.py:19-25 | `page` and `size` go to the pagination fields. Every other key, a literal `query` included, goes to the query dict. Values are kept. |
| Depends.PartitionRecombines | common/depends.py:19-25 | The two parts are disjoint and together give back the parameters. |
| Depends.IntField | common/depends.py:26 | An absent field takes its default. A present one is coerced, and text that is not an integer is a validation error. |
| Depends.BuildPaginationQuery | common/depends.py:26 | The schema is built iff both integer fields coerce. Query values stay strings. |
| Depends.GetQueryParams | common/depends.py:16-27 | Every parameter lands in exactly one place. A missing `page` or `size` falls back to 1 or 10, and a non-integer one is a validation error. |
| Depends.ClaimQuerySelects | common/depends.py:50 | The query `{'id': claim}` selects exactly the live rows whose id equals the claim. |
| Depends.Authenticate | common/depends.py:47-55 | A token failure propagates unchanged. '用户不存在' is raised iff no live user holds the token's `id` claim. Otherwise the request passes with the first live user, in table order, that holds the claim. |
| Depends.CheckPermission | common/depends.py:30-55 | No route is refused with '没有权限', and empty metadata passes with no user. A malformed declaration propagates its error. If `is_require_auth` is false the request passes with no user; otherwise the token decides. |
| Depends.AllowedUserIsAuthenticated | common/depends.py:30-55 | Passing with a user means authentication was required and the user is live and holds the token's id. Passing without one means no authentication was required. |
| Depends.NoAuthIgnoresTokenAndSession | common/depends.py:39-44 | When no authentication is required, the outcome depends neither on the token nor on the table. |
| Depends.MissingKeyMeansDefaultDeclaration | common/depends.py:42-44 | Metadata without 'route_permission' is judged as the all-empty declaration. |
| Depends.TiersNotEnforced | common/depends.py:42-55 | Any two routes registered with declarations that require authentication get the same outcome, namely the token and user check alone: the declared tiers never change it. |
| Depends.WiredGateOpenWhereLegacyCloses | common/depends.py:39-40 | On empty metadata the wired gate passes while the legacy gate refuses. |

## Left out

- Token parsing (`parse_token`) and the JWT configuration are not part of this model. The parser is a function parameter returning claims or an exception.
- `is_require_auth` is not part of this model. It is a predicate parameter of the gate.
- Password hashing with bcrypt is a function parameter of `UserService.CreateUser`. Password verification (`check_pwd`) is left out.
- SQL `LIKE` wildcards inside the filter value (`%`, `_`) are not interpreted; a string filter is plain substring containment. It is also case-sensitive, whereas `LIKE` in SQLite and MySQL ignores ASCII case.
- A string filter on a column that is not a string never matches in the model. The database would cast the column and compare the text. The columns affected are `id`, `uuid`, `ctime`, `utime`, `created_by`, `updated_by`, `enable`, `gender`, `meta` and `rid`. `get_query_params` delivers every filter value as a string. So in the model, any `?column=value` filter on one of these columns selects no rows. Depends.Authenticate has the same gap: its `{'id': claim}` lookup matches only a claim that is exactly the integer id. A claim of `true` or `"5"` would match id 1 or 5 through SQL coercion, but it matches no row in the model.
- `.first()` without `ORDER BY` is modelled as the first matching row in storage order, though SQL promises no order there. The services look rows up only by id or by live name. Both are unique in a well-formed table, so at most one row matches and the choice does not matter.
- The engine, sessions, commit/refresh, transactions and concurrent requests are left out; each operation is one atomic step on the table.
- Logging, timing and the debug `print` calls are left out, except where a `print` changes behaviour (the legacy gate).
- Role and permission relationships of the user row (`role`, the role-permission tables) are left out; `rid` is an opaque optional integer.
- pydantic's error messages are reduced to the failing field name. Coercion of query strings to integers is a function parameter.
- Auth.FromKwargs: when several of the three lists fail validation, pydantic reports all of them in one `ValidationError`. The model reports only the first failing field, in the order menu, interface, button. The login and create schemas do report every failing field.
- Middleware.HandleExceptionMiddleware: its last clause is `except Exception`. Exceptions deriving only from `BaseException`, such as `asyncio.CancelledError` on a client disconnect, `KeyboardInterrupt` or `SystemExit`, escape the middleware after its `finally` and get no envelope. They are outside the model's exception type.
- Db.FormatDateTime: years below 1000 are zero-padded to four digits; `strftime` on some platforms does not pad them.
- Exceptions.Str: the rendering of `HTTPException` is only used through its status and detail in the middleware.
- UserService and Pagination take the model's field set as a parameter (`get_db_model_fields` is not part of this model) and require it to lie within the user columns.
- Pagination.Paginate: requires `page >= 1` and `size >= 0`. For other values the source hands SQL a negative offset or limit, whose effect depends on the database.
- The user routes that call these services (apis/user.py) are left out.
- Db.NewBaseColumns: `ctime` and `utime` of a new row are the same clock value `now`. db.py:38-39 calls `datetime.now` once per column, so the two can differ by microseconds. A single clock parameter keeps the model deterministic.
- UserService.ModelFields: the field set returned by `get_db_model_fields` is assumed to contain 'id' and 'name', besides lying within the user columns. Every lookup the services make is by one of those two keys, and the user model declares both.
- Depends.PaginationFields: the pagination keys are fixed to 'page' and 'size' instead of being read from `PaginationQuerySchema` (common/pagination.py:11-15). They are that schema's fields other than `query`.

## Findings

| source | as written | input that shows it | evidently intended | confidence | as-written member | corrected member |
|---|---|---|---|---|---|---|
| services/user.py:59 | `check_name` returns true for the empty name ("" is falsy), so `update_by_id` skips the uniqueness check | table with live users 1 named "" and 2 named "b"; update user 2 with name "" | only an absent name (`None`) skips the check, so two live users never share a name | not executed | UserService.UpdateByIdAsWritten, UserService.EmptyNameBreaksUniqueness | UserService.UpdateById, UserService.CheckNameCorrected |
| common/auth.py:52 | the debug `print` reads `route.openapi_extra` before the `if not route` guard | a request whose scope has no matched route | a missing route raises `PermissionException('没有权限')` (code 401), not `AttributeError` (reported as 500) | not executed | Auth.LegacyCheckPermissionAsWritten, Auth.LegacyMissingRouteDiscrepancy | Auth.LegacyCheckPermission |

=== FILE: auth.dfy ===
/** The per-route permission declaration of common/auth.py (`RoutePermission`),
    its serialisation into a route's `openapi_extra`, and the older,
    fail-closed request gate `check_permission` of the same file. */
module Auth {

  import opened Wrappers
  import opened Exceptions
  import opened PermissionEnum

  /** `RoutePermission`: the codes a route declares on each of the three tiers. */
  datatype RoutePermission = RoutePermission(
    menuList: seq<MenuEnum>,
    interfaceList: seq<InterfaceEnum>,
    buttonList: seq<ButtonEnum>)

  /** `RoutePermission()`: every list defaults to empty. */
  const DefaultPermission: RoutePermission := RoutePermission([], [], [])

  /** The rule shared by the three tier checks: an empty list leaves the tier
      unrestricted; otherwise `code` must equal the code of a listed member. */
  function TierAllows<T>(list: seq<T>, codeOf: T -> string, code: string): (r: bool)
    ensures r <==> (|list| == 0 || exists i :: 0 <= i < |list| && codeOf(list[i]) == code)
  {
    if |list| == 0 then true else code in MapSeq(list, codeOf)
  }

  /** `check_menu`. */
  function CheckMenu(p: RoutePermission, code: string): (r: bool)
    ensures r <==> (p.menuList == [] || exists m :: m in p.menuList && MenuCode(m) == code)
  {
    TierAllows(p.menuList, MenuCode, code)
  }

  /** `chek_interface`. */
  function CheckInterface(p: RoutePermission, code: string): (r: bool)
    ensures r <==> (p.interfaceList == [] || exists i :: i in p.interfaceList && InterfaceCode(i) == code)
  {
    TierAllows(p.interfaceList, InterfaceCode, code)
  }

  /** `chek_button`. */
  function CheckButton(p: RoutePermission, code: string): (r: bool)
    ensures r <==> (p.buttonList == [] || exists b :: b in p.buttonList && ButtonCode(b) == code)
  {
    TierAllows(p.buttonList, ButtonCode, code)
  }

  /** Each tier check reads its own list only: replacing the other two lists
      changes none of its answers. */
  lemma TierChecksReadOwnListOnly(p: RoutePermission, q: RoutePermission, code: string)
    ensures p.menuList == q.menuList ==> CheckMenu(p, code) == CheckMenu(q, code)
    ensures p.interfaceList == q.interfaceList ==> CheckInterface(p, code) == CheckInterface(q, code)
    ensures p.buttonList == q.buttonList ==> CheckButton(p, code) == CheckButton(q, code)
  {
  }

  /** A default-constructed declaration restricts nothing. */
  lemma DefaultAcceptsEveryCode(code: string)
    ensures CheckMenu(DefaultPermission, code)
    ensures CheckInterface(DefaultPermission, code)
    ensures CheckButton(DefaultPermission, code)
  {
  }

  /** Because two interface members share a code, declaring only `USER_ENABLE`
      admits the code of `USER_DEL`. */
  lemma EnableDeclarationAdmitsDeleteCode()
    ensures CheckInterface(RoutePermission([], [UserEnable], []), InterfaceCode(UserDel))
    ensures !CheckInterface(RoutePermission([], [UserEnable], []), InterfaceCode(UserGet))
  {
    assert InterfaceCode(UserGet) != InterfaceCode(UserEnable);
  }

  // ---------------------------------------------------------------------------
  // Serialisation into `openapi_extra`
  // ---------------------------------------------------------------------------

  /** A list element as `model_dump()` leaves it: an enumeration member, or
      anything else a caller put into the route's metadata. */
  datatype Item = MenuItem(menu: MenuEnum) | InterfaceItem(iface: InterfaceEnum) | ButtonItem(button: ButtonEnum) | ForeignItem

  /** A keyword argument passed to the `RoutePermission` constructor. */
  datatype Arg = ListArg(items: seq<Item>) | ForeignArg

  /** A value stored in a route's `openapi_extra`. */
  datatype ExtraValue = KwargsValue(kwargs: map<string, Arg>) | ForeignValue

  type OpenapiExtra = map<string, ExtraValue>

  const MenuField: string := "menu_list"
  const InterfaceField: string := "interface_list"
  const ButtonField: string := "buttion_list"

  /** `RoutePermission.get_extra_key()`. */
  function GetExtraKey(): (r: string)
    ensures r !in {MenuField, InterfaceField, ButtonField}
  {
    "route_permission"
  }

  /** `model_dump()`: field name to list of members. */
  function ModelDump(p: RoutePermission): map<string, Arg> {
    map[MenuField := ListArg(MapSeq(p.menuList, (m: MenuEnum) => MenuItem(m))),
        InterfaceField := ListArg(MapSeq(p.interfaceList, (i: InterfaceEnum) => InterfaceItem(i))),
        ButtonField := ListArg(MapSeq(p.buttonList, (b: ButtonEnum) => ButtonItem(b)))]
  }

  /** `to_openapi_extra()`: a single entry, under the extra key. */
  function ToOpenapiExtra(p: RoutePermission): (r: OpenapiExtra)
    ensures r.Keys == {GetExtraKey()}
    ensures r[GetExtraKey()].KwargsValue?
    ensures r[GetExtraKey()].kwargs.Keys == {MenuField, InterfaceField, ButtonField}
    ensures var d := r[GetExtraKey()].kwargs[MenuField];
      d.ListArg? && |d.items| == |p.menuList| && forall i :: 0 <= i < |p.menuList| ==> d.items[i] == MenuItem(p.menuList[i])
    ensures var d := r[GetExtraKey()].kwargs[InterfaceField];
      d.ListArg? && |d.items| == |p.interfaceList| && forall i :: 0 <= i < |p.interfaceList| ==> d.items[i] == InterfaceItem(p.interfaceList[i])
    ensures var d := r[GetExtraKey()].kwargs[ButtonField];
      d.ListArg? && |d.items| == |p.buttonList| && forall i :: 0 <= i < |p.buttonList| ==> d.items[i] == ButtonItem(p.buttonList[i])
  {
    map[GetExtraKey() := KwargsValue(ModelDump(p))]
  }

  /** Validation of one list element against the field's enumeration. */
  function AsMenu(item: Item): Option<MenuEnum> {
    if item.MenuItem? then Some(item.menu) else None
  }

  function AsInterface(item: Item): Option<InterfaceEnum> {
    if item.InterfaceItem? then Some(item.iface) else None
  }

  function AsButton(item: Item): Option<ButtonEnum> {
    if item.ButtonItem? then Some(item.button) else None
  }

  /** Validation of a whole list: it succeeds iff every element validates. */
  function ParseItems<T>(items: seq<Item>, select: Item -> Option<T>): (r: Option<seq<T>>)
    ensures r.Some? <==> forall i :: 0 <= i < |items| ==> select(items[i]).Some?
    ensures r.Some? ==> |r.value| == |items| && forall i :: 0 <= i < |items| ==> select(items[i]) == Some(r.value[i])
  {
    if |items| == 0 then Some([])
    else match (select(items[0]), ParseItems(items[1..], select))
      case (Some(t), Some(ts)) => Some([t] + ts)
      case _ => None
  }

  /** The pydantic error for a field that fails validation; only the field's
      name is kept of its message. */
  function ValidationError(field: string): Exception {
    OtherException("ValidationError", field)
  }

  /** One list field of the constructor: a missing field takes its default
      (empty); a present one must be a list of members of the field's enumeration. */
  function FieldList<T>(kwargs: map<string, Arg>, field: string, select: Item -> Option<T>): (r: Result<seq<T>, Exception>)
    ensures field !in kwargs ==> r == Success([])
    ensures field in kwargs ==> (r.Success? <==> kwargs[field].ListArg? && ParseItems(kwargs[field].items, select).Some?)
    ensures field in kwargs && r.Success? ==> r.value == ParseItems(kwargs[field].items, select).value
    ensures r.Failure? ==> r.error == ValidationError(field)
  {
    if field !in kwargs then Success([])
    else match kwargs[field]
      case ListArg(items) =>
        (match ParseItems(items, select)
         case Some(list) => Success(list)
         case None => Failure(ValidationError(field)))
      case ForeignArg => Failure(ValidationError(field))
  }

  /** `RoutePermission(**kwargs)`: keys other than the three fields are
      ignored, and the first field that fails validation is reported. */
  function FromKwargs(kwargs: map<string, Arg>): (r: Result<RoutePermission, Exception>)
    ensures (MenuField !in kwargs && InterfaceField !in kwargs && ButtonField !in kwargs) ==> r == Success(DefaultPermission)
    ensures r.Success? <==>
      && FieldList(kwargs, MenuField, AsMenu).Success?
      && FieldList(kwargs, InterfaceField, AsInterface).Success?
      && FieldList(kwargs, ButtonField, AsButton).Success?
    ensures r.Success? ==>
      && r.value.menuList == FieldList(kwargs, MenuField, AsMenu).value
      && r.value.interfaceList == FieldList(kwargs, InterfaceField, AsInterface).value
      && r.value.buttonList == FieldList(kwargs, ButtonField, AsButton).value
    ensures r.Failure? ==> r.error in {ValidationError(MenuField), ValidationError(InterfaceField), ValidationError(ButtonField)}
    ensures FieldList(kwargs, MenuField, AsMenu).Failure? ==> r == Failure(ValidationError(MenuField))
    ensures FieldList(kwargs, MenuField, AsMenu).Success? && FieldList(kwargs, InterfaceField, AsInterface).Failure? ==>
      r == Failure(ValidationError(InterfaceField))
    ensures (&& FieldList(kwargs, MenuField, AsMenu).Success? && FieldList(kwargs, InterfaceField, AsInterface).Success?
             && FieldList(kwargs, ButtonField, AsButton).Failure?) ==>
      r == Failure(ValidationError(ButtonField))
  {
    var menu :- FieldList(kwargs, MenuField, AsMenu);
    var iface :- FieldList(kwargs, InterfaceField, AsInterface);
    var button :- FieldList(kwargs, ButtonField, AsButton);
    Success(RoutePermission(menu, iface, button))
  }

  /** `RoutePermission(**value)`: a value that is not a mapping cannot be unpacked. */
  function FromExtraValue(v: ExtraValue): Result<RoutePermission, Exception> {
    match v
    case KwargsValue(kwargs) => FromKwargs(kwargs)
    case ForeignValue => Failure(OtherException("TypeError", "argument after ** must be a mapping"))
  }

  /** `RoutePermission(**extra.get(get_extra_key(), {}))`: metadata without
      the key yields the all-empty declaration. */
  function FromOpenapiExtra(extra: OpenapiExtra): (r: Result<RoutePermission, Exception>)
    ensures GetExtraKey() !in extra ==> r == Success(DefaultPermission)
    ensures GetExtraKey() in extra && extra[GetExtraKey()].KwargsValue? ==> r == FromKwargs(extra[GetExtraKey()].kwargs)
    ensures GetExtraKey() in extra && extra[GetExtraKey()].ForeignValue? ==>
      r == Failure(OtherException("TypeError", "argument after ** must be a mapping"))
  {
    FromExtraValue(if GetExtraKey() in extra then extra[GetExtraKey()] else KwargsValue(map[]))
  }

  lemma {:induction false} ParseDumpedItems<T>(list: seq<T>, wrap: T -> Item, select: Item -> Option<T>)
    requires forall t :: select(wrap(t)) == Some(t)
    ensures ParseItems(MapSeq(list, wrap), select) == Some(list)
  {
    var items := MapSeq(list, wrap);
    var r := ParseItems(items, select);
    assert r.Some?;
    assert |r.value| == |list|;
    forall i | 0 <= i < |list| ensures r.value[i] == list[i] {
      assert select(items[i]) == Some(r.value[i]);
    }
    assert r.value == list;
  }

  /** Rebuilding a declaration from the metadata it serialises to gives the
      same declaration. */
  lemma OpenapiExtraRoundTrip(p: RoutePermission)
    ensures FromOpenapiExtra(ToOpenapiExtra(p)) == Success(p)
  {
    ParseDumpedItems(p.menuList, (m: MenuEnum) => MenuItem(m), AsMenu);
    ParseDumpedItems(p.interfaceList, (i: InterfaceEnum) => InterfaceItem(i), AsInterface);
    ParseDumpedItems(p.buttonList, (b: ButtonEnum) => ButtonItem(b), AsButton);
  }

  // ---------------------------------------------------------------------------
  // The legacy gate
  // ---------------------------------------------------------------------------

  /** The matched route, reduced to the metadata attached at registration.
      Python's `None` and `{}` metadata are both falsy and behave alike, so
      both are the empty map. */
  datatype Route = Route(openapiExtra: OpenapiExtra)

  const NoPermissionMessage: string := "没有权限"
  const LegacyDeniedMessage: string := "灭有权限"

  /** The legacy gate once a route is known: empty metadata is refused, and
      otherwise the menu check for the hard-coded code "user-manage" decides. */
  function LegacyGateOnRoute(route: Route): Outcome<Exception> {
    if |route.openapiExtra| == 0 then Fail(PermissionException(NoPermissionMessage))
    else match FromOpenapiExtra(route.openapiExtra)
      case Failure(e) => Fail(e)
      case Success(p) =>
        if CheckMenu(p, "user-manage") then Pass else Fail(PermissionException(LegacyDeniedMessage))
  }

  /** common/auth.py `check_permission` as written: the debugging `print`
      reads `route.openapi_extra` before the route is tested, so a missing
      route raises `AttributeError` instead of `PermissionException`. */
  function LegacyCheckPermissionAsWritten(route: Option<Route>): (r: Outcome<Exception>)
    ensures route.None? ==> r.Fail? && r.error.OtherException? && r.error.typeName == "AttributeError"
    ensures route.Some? ==> r == LegacyGateOnRoute(route.value)
  {
    match route
    case None => Fail(OtherException("AttributeError", "'NoneType' object has no attribute 'openapi_extra'"))
    case Some(rt) => LegacyGateOnRoute(rt)
  }

  /** The legacy gate as its guard intends: fail-closed, raising
      `PermissionException` for a missing route or empty metadata, and
      otherwise passing exactly when the declaration admits menu code "user-manage". */
  function LegacyCheckPermission(route: Option<Route>): (r: Outcome<Exception>)
    ensures (route.None? || |route.value.openapiExtra| == 0) ==> r == Fail(PermissionException("没有权限"))
    ensures route.Some? && |route.value.openapiExtra| > 0 && FromOpenapiExtra(route.value.openapiExtra).Failure? ==>
      r == Fail(FromOpenapiExtra(route.value.openapiExtra).error)
    ensures route.Some? && |route.value.openapiExtra| > 0 && FromOpenapiExtra(route.value.openapiExtra).Success? ==>
      (r.Pass? <==> CheckMenu(FromOpenapiExtra(route.value.openapiExtra).value, MenuCode(UserManage)))
    ensures route.Some? && |route.value.openapiExtra| > 0 && FromOpenapiExtra(route.value.openapiExtra).Success?
            && !CheckMenu(FromOpenapiExtra(route.value.openapiExtra).value, MenuCode(UserManage)) ==>
      r == Fail(PermissionException(LegacyDeniedMessage))
    ensures r.Fail? && r.error.PermissionException? ==> r.error.message in {NoPermissionMessage, LegacyDeniedMessage}
  {
    match route
    case None => Fail(PermissionException(NoPermissionMessage))
    case Some(rt) => LegacyGateOnRoute(rt)
  }

  /** The two versions differ exactly on a missing route. */
  lemma LegacyMissingRouteDiscrepancy()
    ensures LegacyCheckPermissionAsWritten(None) != LegacyCheckPermission(None)
    ensures forall rt: Route :: LegacyCheckPermissionAsWritten(Some(rt)) == LegacyCheckPermission(Some(rt))
  {
  }

  /** The declaration of the user-list route in apis/user.py. */
  const UserListPermission: RoutePermission := RoutePermission([UserManage], [UserGet], [])

  /** That declaration admits the user-management menu and the user-list
      interface only, leaves buttons unrestricted, and passes the legacy gate. */
  lemma UserListRouteDeclaration()
    ensures CheckMenu(UserListPermission, "user-manage") && !CheckMenu(UserListPermission, "role-manage")
    ensures CheckInterface(UserListPermission, "/users/get") && !CheckInterface(UserListPermission, "/users/post")
    ensures CheckButton(UserListPermission, "user:del")
    ensures LegacyCheckPermission(Some(Route(ToOpenapiExtra(UserListPermission)))) == Pass
  {
    OpenapiExtraRoundTrip(UserListPermission);
    assert MenuCode(RoleManage) != MenuCode(UserManage);
    assert InterfaceCode(UserPost) != InterfaceCode(UserGet);
  }
}

=== FILE: db.dfy ===
/** The shared row layer of db.py: the columns every table inherits from
    `DBBaseModel` with their defaults, the default sort order, and the
    `format_datetime` validator of `DBBaseSchema`. The engine and sessions are
    not modelled. */
module Db {

  import opened Wrappers

  /** A naive `datetime` value. */
  datatype DateTime = DateTime(year: int, month: int, day: int, hour: int, minute: int, second: int, microsecond: int) {

    predicate Valid() {
      && 1 <= year <= 9999
      && 1 <= month <= 12
      && 1 <= day <= DaysInMonth(year, month)
      && 0 <= hour < 24
      && 0 <= minute < 60
      && 0 <= second < 60
      && 0 <= microsecond < 1000000
    }

    /** The same instant with the sub-second part dropped. */
    function TruncateToSecond(): DateTime {
      this.(microsecond := 0)
    }
  }

  predicate IsLeapYear(y: int) {
    y % 4 == 0 && (y % 100 != 0 || y % 400 == 0)
  }

  function DaysInMonth(y: int, m: int): int {
    if m == 2 then (if IsLeapYear(y) then 29 else 28)
    else if m in {4, 6, 9, 11} then 30
    else 31
  }

  /** Chronological order of two datetimes. */
  predicate Earlier(a: DateTime, b: DateTime) {
    || a.year < b.year
    || (a.year == b.year && a.month < b.month)
    || (a.year == b.year && a.month == b.month && a.day < b.day)
    || (a.year == b.year && a.month == b.month && a.day == b.day && a.hour < b.hour)
    || (a.year == b.year && a.month == b.month && a.day == b.day && a.hour == b.hour && a.minute < b.minute)
    || (a.year == b.year && a.month == b.month && a.day == b.day && a.hour == b.hour && a.minute == b.minute
        && a.second < b.second)
    || (a.year == b.year && a.month == b.month && a.day == b.day && a.hour == b.hour && a.minute == b.minute
        && a.second == b.second && a.microsecond < b.microsecond)
  }

  /** A column value as the database hands it back. */
  datatype Value =
    | VNone
    | VBool(b: bool)
    | VInt(i: int)
    | VStr(s: string)
    | VTime(t: DateTime)
    | VEnum(member: string)
    | VUuid(u: nat)
    | VJson(json: string)

  /** A query: column name to the value the column is compared with. */
  type Query = map<string, Value>

  /** `{k: v for k, v in query.items() if k in fields}`. */
  function Restrict(q: Query, fields: set<string>): (r: Query)
    ensures r.Keys == q.Keys * fields
    ensures forall k :: k in r ==> r[k] == q[k]
  {
    map k | k in q && k in fields :: q[k]
  }

  function OptionalInt(o: Option<int>): Value {
    match o
    case Some(i) => VInt(i)
    case None => VNone
  }

  function OptionalStr(o: Option<string>): Value {
    match o
    case Some(s) => VStr(s)
    case None => VNone
  }

  /** The columns of `DBBaseModel`. */
  datatype BaseColumns = BaseColumns(
    id: int,
    uuid: nat,
    ctime: DateTime,
    utime: DateTime,
    createdBy: Option<int>,
    updatedBy: Option<int>,
    isDelete: bool,
    enable: bool,
    meta: Option<string>)

  /** The base columns of a freshly inserted row: `uuid4()` and
      `datetime.now()` are supplied by the caller, `is_delete` defaults to
      false and `enable` to true; the remaining columns are NULL. */
  function NewBaseColumns(id: int, uuid: nat, now: DateTime): (r: BaseColumns)
    ensures !r.isDelete && r.enable
    ensures r.id == id && r.uuid == uuid && r.ctime == now && r.utime == now
    ensures r.createdBy.None? && r.updatedBy.None? && r.meta.None?
  {
    BaseColumns(id, uuid, now, now, None, None, false, true, None)
  }

  // ---------------------------------------------------------------------------
  // Default sort: utime descending, then ctime descending, then id ascending
  // ---------------------------------------------------------------------------

  /** `a` is placed before `b` by `get_default_sort()`. */
  predicate SortsBefore(a: BaseColumns, b: BaseColumns) {
    || Earlier(b.utime, a.utime)
    || (a.utime == b.utime && Earlier(b.ctime, a.ctime))
    || (a.utime == b.utime && a.ctime == b.ctime && a.id < b.id)
  }

  lemma EarlierStrictTotal(a: DateTime, b: DateTime, c: DateTime)
    ensures !Earlier(a, a)
    ensures Earlier(a, b) && Earlier(b, c) ==> Earlier(a, c)
    ensures a != b ==> Earlier(a, b) || Earlier(b, a)
  {
  }

  /** The default sort is a strict total order on rows with distinct primary
      keys: irreflexive, transitive, and any two rows with different ids are
      ordered one way or the other. */
  lemma DefaultSortStrictTotal(a: BaseColumns, b: BaseColumns, c: BaseColumns)
    ensures !SortsBefore(a, a)
    ensures SortsBefore(a, b) ==> !SortsBefore(b, a)
    ensures SortsBefore(a, b) && SortsBefore(b, c) ==> SortsBefore(a, c)
    ensures a.id != b.id ==> SortsBefore(a, b) || SortsBefore(b, a)
  {
    EarlierStrictTotal(a.utime, b.utime, c.utime);
    EarlierStrictTotal(c.utime, b.utime, a.utime);
    EarlierStrictTotal(b.utime, a.utime, c.utime);
    EarlierStrictTotal(a.ctime, b.ctime, c.ctime);
    EarlierStrictTotal(c.ctime, b.ctime, a.ctime);
    EarlierStrictTotal(b.ctime, a.ctime, c.ctime);
  }

  /** The default sort orders by `utime` first: a more recently updated row
      comes first whatever its `ctime` and `id`. */
  lemma DefaultSortUtimeFirst(a: BaseColumns, b: BaseColumns)
    requires Earlier(b.utime, a.utime)
    ensures SortsBefore(a, b) && !SortsBefore(b, a)
  {
    EarlierStrictTotal(a.utime, b.utime, a.utime);
  }

  /** Rows whose `utime` ties are ordered by `ctime` descending, and rows tying
      on both timestamps by ascending `id`. */
  lemma DefaultSortTieBreaks(a: BaseColumns, b: BaseColumns)
    requires a.utime == b.utime
    ensures Earlier(b.ctime, a.ctime) ==> SortsBefore(a, b) && !SortsBefore(b, a)
    ensures a.ctime == b.ctime ==> (SortsBefore(a, b) <==> a.id < b.id)
  {
    EarlierStrictTotal(a.ctime, b.ctime, a.ctime);
    EarlierStrictTotal(a.utime, b.utime, a.utime);
  }

  /** No later element of `rows` sorts before an earlier one. */
  ghost predicate SortedByDefault<T>(rows: seq<T>, base: T -> BaseColumns) {
    forall i, j :: 0 <= i < j < |rows| ==> !SortsBefore(base(rows[j]), base(rows[i]))
  }

  ghost predicate DistinctIds<T>(rows: seq<T>, base: T -> BaseColumns) {
    forall i, j :: 0 <= i < |rows| && 0 <= j < |rows| && i != j ==> base(rows[i]).id != base(rows[j]).id
  }

  /** A bound below the first element of a sorted sequence holds for all of it. */
  lemma BelowSortedHead<T>(x: T, sorted: seq<T>, base: T -> BaseColumns)
    requires SortedByDefault(sorted, base) && |sorted| > 0
    requires !SortsBefore(base(sorted[0]), base(x))
    ensures forall k :: 0 <= k < |sorted| ==> !SortsBefore(base(sorted[k]), base(x))
  {
    forall k | 0 <= k < |sorted| ensures !SortsBefore(base(sorted[k]), base(x)) {
      DefaultSortStrictTotal(base(sorted[k]), base(sorted[0]), base(x));
      DefaultSortStrictTotal(base(x), base(sorted[0]), base(sorted[k]));
    }
  }

  /** No element of `rest` sorts before `h` when none of its sources does. */
  lemma NoneBefore<T>(h: T, rest: seq<T>, tail: seq<T>, x: T, base: T -> BaseColumns)
    requires multiset(rest) == multiset(tail) + multiset{x}
    requires forall k :: 0 <= k < |tail| ==> !SortsBefore(base(tail[k]), base(h))
    requires !SortsBefore(base(x), base(h))
    ensures forall k :: 0 <= k < |rest| ==> !SortsBefore(base(rest[k]), base(h))
  {
    forall k | 0 <= k < |rest| ensures !SortsBefore(base(rest[k]), base(h)) {
      assert rest[k] in multiset(rest);
      if rest[k] != x {
        assert rest[k] in multiset(tail);
        var m :| 0 <= m < |tail| && tail[m] == rest[k];
      }
    }
  }

  function Insert<T>(x: T, sorted: seq<T>, base: T -> BaseColumns): (r: seq<T>)
    requires SortedByDefault(sorted, base)
    ensures SortedByDefault(r, base)
    ensures multiset(r) == multiset(sorted) + multiset{x}
  {
    if |sorted| == 0 then [x]
    else if SortsBefore(base(sorted[0]), base(x)) then
      var rest := Insert(x, sorted[1..], base);
      assert sorted == [sorted[0]] + sorted[1..];
      DefaultSortStrictTotal(base(sorted[0]), base(x), base(x));
      NoneBefore(sorted[0], rest, sorted[1..], x, base);
      [sorted[0]] + rest
    else
      BelowSortedHead(x, sorted, base);
      [x] + sorted
  }

  /** `ORDER BY utime DESC, ctime DESC, id ASC` applied to `rows`. */
  function SortByDefault<T>(rows: seq<T>, base: T -> BaseColumns): (r: seq<T>)
    ensures SortedByDefault(r, base)
    ensures multiset(r) == multiset(rows)
  {
    if |rows| == 0 then []
    else
      assert rows == [rows[0]] + rows[1..];
      Insert(rows[0], SortByDefault(rows[1..], base), base)
  }

  lemma SortedHeadsAgree<T>(a: seq<T>, b: seq<T>, base: T -> BaseColumns)
    requires SortedByDefault(a, base) && SortedByDefault(b, base)
    requires multiset(a) == multiset(b) && |a| > 0
    requires DistinctIds(a, base)
    ensures |b| > 0 && a[0] == b[0]
  {
    assert a[0] in multiset(b);
    var k :| 0 <= k < |b| && b[k] == a[0];
    assert b[0] in multiset(a);
    var m :| 0 <= m < |a| && a[m] == b[0];
    if a[0] != b[0] {
      assert !SortsBefore(base(b[k]), base(b[0]));
      assert !SortsBefore(base(a[m]), base(a[0]));
      DefaultSortStrictTotal(base(a[0]), base(a[m]), base(a[0]));
      assert false;
    }
  }

  lemma SameTailMultiset<T>(a: seq<T>, b: seq<T>)
    requires multiset(a) == multiset(b) && |a| > 0 && |b| > 0 && a[0] == b[0]
    ensures multiset(a[1..]) == multiset(b[1..])
  {
    assert a == [a[0]] + a[1..] && b == [b[0]] + b[1..];
    assert multiset(a) == multiset{a[0]} + multiset(a[1..]);
    assert multiset(b) == multiset{b[0]} + multiset(b[1..]);
    forall z ensures multiset(a[1..])[z] == multiset(b[1..])[z] {
      assert multiset(a)[z] == multiset(b)[z];
    }
  }

  /** Because the default sort is strict and total on distinct ids, the
      sorted order of a set of rows is unique: two sorted arrangements of the
      same rows are equal. */
  lemma {:induction false} SortedArrangementUnique<T>(a: seq<T>, b: seq<T>, base: T -> BaseColumns)
    requires SortedByDefault(a, base) && SortedByDefault(b, base)
    requires multiset(a) == multiset(b)
    requires DistinctIds(a, base)
    ensures a == b
    decreases |a|
  {
    if |a| == 0 {
      assert |b| == |multiset(b)| == 0;
    } else {
      SortedHeadsAgree(a, b, base);
      SameTailMultiset(a, b);
      SortedArrangementUnique(a[1..], b[1..], base);
      assert a == [a[0]] + a[1..] && b == [b[0]] + b[1..];
    }
  }

  // ---------------------------------------------------------------------------
  // `format_datetime` and its reading back as a `datetime` field
  // ---------------------------------------------------------------------------

  function DigitValue(c: char): int {
    if '0' <= c <= '9' then c as int - '0' as int else -1
  }

  function Pad2(n: int): (r: string)
    requires 0 <= n < 100
    ensures |r| == 2
  {
    [Digit(n / 10), Digit(n % 10)]
  }

  function Pad4(n: int): (r: string)
    requires 0 <= n < 10000
    ensures |r| == 4
  {
    Pad2(n / 100) + Pad2(n % 100)
  }

  /** Three fields joined by a separator: "aaaa-bb-cc" or "aa:bb:cc". */
  function Join3(a: string, sep: char, b: string, c: string): (r: string)
    requires |b| == 2 && |c| == 2
    ensures |r| == |a| + 6
    ensures r[|a|] == sep && r[|a| + 3] == sep
    ensures r[..|a|] == a && r[|a| + 1..|a| + 3] == b && r[|a| + 4..] == c
  {
    a + [sep] + b + [sep] + c
  }

  /** `strftime('%Y-%m-%d %H:%M:%S')`. */
  function FormatDateTime(dt: DateTime): (r: string)
    requires dt.Valid()
    ensures |r| == 19
    ensures r[4] == '-' && r[7] == '-' && r[10] == ' ' && r[13] == ':' && r[16] == ':'
  {
    var date := Join3(Pad4(dt.year), '-', Pad2(dt.month), Pad2(dt.day));
    var time := Join3(Pad2(dt.hour), ':', Pad2(dt.minute), Pad2(dt.second));
    date + " " + time
  }

  function Number(s: string): int {
    if |s| == 0 then 0 else Number(s[..|s| - 1]) * 10 + DigitValue(s[|s| - 1])
  }

  predicate AllDigits(s: string) {
    forall i :: 0 <= i < |s| ==> '0' <= s[i] <= '9'
  }

  /** Reading a "YYYY-MM-DD HH:MM:SS" string as a `datetime` field, as the
      schema does with the string `format_datetime` returns. */
  function ParseDateTime(s: string): Option<DateTime> {
    if |s| != 19 || s[4] != '-' || s[7] != '-' || s[10] != ' ' || s[13] != ':' || s[16] != ':' then None
    else if !(AllDigits(s[0..4]) && AllDigits(s[5..7]) && AllDigits(s[8..10])
              && AllDigits(s[11..13]) && AllDigits(s[14..16]) && AllDigits(s[17..19])) then None
    else
      var dt := DateTime(Number(s[0..4]), Number(s[5..7]), Number(s[8..10]),
                         Number(s[11..13]), Number(s[14..16]), Number(s[17..19]), 0);
      if dt.Valid() then Some(dt) else None
  }

  lemma Pad2RoundTrip(n: int)
    requires 0 <= n < 100
    ensures AllDigits(Pad2(n)) && Number(Pad2(n)) == n
  {
    var s := Pad2(n);
    assert s[..1] == [Digit(n / 10)];
    assert Number(s[..1]) == n / 10;
  }

  lemma NumberAppend2(x: string, y: string)
    requires |y| == 2
    ensures Number(x + y) == Number(x) * 100 + Number(y)
  {
    var xy := x + y;
    var x1 := x + y[..1];
    assert xy[..|xy| - 1] == x1;
    assert Number(xy) == Number(x1) * 10 + DigitValue(y[1]);
    assert x1[..|x1| - 1] == x;
    assert Number(x1) == Number(x) * 10 + DigitValue(y[0]);
    assert y[..1][..0] == [];
    assert Number(y[..1]) == DigitValue(y[0]);
    assert Number(y) == DigitValue(y[0]) * 10 + DigitValue(y[1]);
  }

  lemma Pad4RoundTrip(n: int)
    requires 0 <= n < 10000
    ensures AllDigits(Pad4(n)) && Number(Pad4(n)) == n
  {
    Pad2RoundTrip(n / 100);
    Pad2RoundTrip(n % 100);
    NumberAppend2(Pad2(n / 100), Pad2(n % 100));
  }

  /** Where each field sits in the formatted text. */
  lemma FormatFields(dt: DateTime)
    requires dt.Valid()
    ensures var s := FormatDateTime(dt);
      && s[0..4] == Pad4(dt.year) && s[5..7] == Pad2(dt.month) && s[8..10] == Pad2(dt.day)
      && s[11..13] == Pad2(dt.hour) && s[14..16] == Pad2(dt.minute) && s[17..19] == Pad2(dt.second)
  {
    var s := FormatDateTime(dt);
    var date := Join3(Pad4(dt.year), '-', Pad2(dt.month), Pad2(dt.day));
    var time := Join3(Pad2(dt.hour), ':', Pad2(dt.minute), Pad2(dt.second));
    assert s[0..4] == date[..4];
    assert s[5..7] == date[5..7];
    assert s[8..10] == date[6 + 2..];
    assert s[11..13] == time[..2];
    assert s[14..16] == time[3..5];
    assert s[17..19] == time[6..];
  }

  /** Formatting a valid datetime and reading it back yields the same
      datetime without its sub-second part. */
  lemma FormatParseRoundTrip(dt: DateTime)
    requires dt.Valid()
    ensures ParseDateTime(FormatDateTime(dt)) == Some(dt.TruncateToSecond())
  {
    FormatFields(dt);
    Pad4RoundTrip(dt.year);
    Pad2RoundTrip(dt.month);
    Pad2RoundTrip(dt.day);
    Pad2RoundTrip(dt.hour);
    Pad2RoundTrip(dt.minute);
    Pad2RoundTrip(dt.second);
  }

  /** Two valid datetimes render identically exactly when they agree to the second. */
  lemma FormatIdentifiesSeconds(a: DateTime, b: DateTime)
    requires a.Valid() && b.Valid()
    ensures FormatDateTime(a) == FormatDateTime(b) <==> a.TruncateToSecond() == b.TruncateToSecond()
  {
    if FormatDateTime(a) == FormatDateTime(b) {
      FormatParseRoundTrip(a);
      FormatParseRoundTrip(b);
    }
  }

  /** `DBBaseSchema.format_datetime`: a datetime becomes its
      "YYYY-MM-DD HH:MM:SS" text; any other value passes unchanged. */
  function FormatDatetimeField(v: Value): (r: Value)
    requires v.VTime? ==> v.t.Valid()
    ensures !v.VTime? ==> r == v
    ensures v.VTime? ==> r.VStr? && ParseDateTime(r.s) == Some(v.t.TruncateToSecond())
  {
    match v
    case VTime(t) =>
      FormatParseRoundTrip(t);
      VStr(FormatDateTime(t))
    case _ => v
  }
}

=== FILE: depends.dfy ===
/** The request dependencies of common/depends.py: the permission gate wired
    into the routes, and the collection of pagination query parameters. */
module Depends {

  import opened Wrappers
  import opened Exceptions
  import opened Db
  import opened UserModel
  import opened Auth
  import opened UserService
  import opened Pagination

  // ---------------------------------------------------------------------------
  // get_query_params
  // ---------------------------------------------------------------------------

  /** The pagination fields filled from the query string; `query` is excluded. */
  const PaginationFields: set<string> := {"page", "size"}

  /** Partitions the query parameters: `page` and `size` go to the pagination
      fields, every other key (one literally named `query` included) goes to
      the query dictionary. */
  method SplitQueryParams(params: map<string, string>) returns (data: map<string, string>, query: map<string, string>)
    ensures data.Keys == params.Keys * PaginationFields
    ensures query.Keys == params.Keys - PaginationFields
    ensures forall k :: k in data ==> data[k] == params[k]
    ensures forall k :: k in query ==> query[k] == params[k]
  {
    data, query := map[], map[];
    var rest := params.Keys;
    while rest != {}
      invariant rest <= params.Keys
      invariant data.Keys == (params.Keys - rest) * PaginationFields
      invariant query.Keys == (params.Keys - rest) - PaginationFields
      invariant forall k :: k in data ==> data[k] == params[k]
      invariant forall k :: k in query ==> query[k] == params[k]
      decreases rest
    {
      var k :| k in rest;
      if k in PaginationFields {
        data := data[k := params[k]];
      } else {
        query := query[k := params[k]];
      }
      rest := rest - {k};
    }
  }

  /** The two halves of a partition put back together give the parameters. */
  lemma PartitionRecombines(params: map<string, string>, data: map<string, string>, query: map<string, string>)
    requires data.Keys == params.Keys * PaginationFields
    requires query.Keys == params.Keys - PaginationFields
    requires forall k :: k in data ==> data[k] == params[k]
    requires forall k :: k in query ==> query[k] == params[k]
    ensures data.Keys !! query.Keys
    ensures data + query == params
  {
    var u := data + query;
    assert u.Keys == params.Keys;
    forall k | k in params ensures u[k] == params[k] {
      if k in query {
        assert u[k] == query[k];
      } else {
        assert u[k] == data[k];
      }
    }
  }

  /** One integer field of `PaginationQuerySchema`: absent takes the default,
      present is coerced from its text, and text that is not an integer is a
      validation error. */
  function IntField(data: map<string, string>, field: string, default: int, toInt: string -> Option<int>): (r: Result<int, Exception>)
    ensures field !in data ==> r == Success(default)
    ensures field in data ==> (r.Success? <==> toInt(data[field]).Some?)
    ensures field in data && r.Success? ==> r.value == toInt(data[field]).value
    ensures r.Failure? ==> r.error == ValidationError(field)
  {
    if field !in data then Success(default)
    else match toInt(data[field])
      case Some(n) => Success(n)
      case None => Failure(ValidationError(field))
  }

  /** `PaginationQuerySchema(**data_dict, query=query_dict)`: the query values
      stay the strings they arrived as. */
  function BuildPaginationQuery(data: map<string, string>, query: map<string, string>, toInt: string -> Option<int>): (r: Result<PaginationQuerySchema, Exception>)
    ensures r.Success? <==> IntField(data, "page", DefaultPage, toInt).Success? && IntField(data, "size", DefaultSize, toInt).Success?
    ensures r.Success? ==> r.value.query.Keys == query.Keys
    ensures r.Success? ==> forall k :: k in query ==> r.value.query[k] == VStr(query[k])
    ensures r.Success? ==> r.value.page == IntField(data, "page", DefaultPage, toInt).value
    ensures r.Success? ==> r.value.size == IntField(data, "size", DefaultSize, toInt).value
  {
    var page :- IntField(data, "page", DefaultPage, toInt);
    var size :- IntField(data, "size", DefaultSize, toInt);
    Success(PaginationQuerySchema(page, size, map k | k in query :: VStr(query[k])))
  }

  /** `get_query_params`: every parameter lands in exactly one place, and a
      missing `page` or `size` falls back to 1 or 10. */
  method GetQueryParams(params: map<string, string>, toInt: string -> Option<int>) returns (r: Result<PaginationQuerySchema, Exception>)
    ensures r.Success? <==> ("page" in params ==> toInt(params["page"]).Some?) && ("size" in params ==> toInt(params["size"]).Some?)
    ensures r.Success? ==> r.value.page == (if "page" in params then toInt(params["page"]).value else DefaultPage)
    ensures r.Success? ==> r.value.size == (if "size" in params then toInt(params["size"]).value else DefaultSize)
    ensures r.Success? ==> r.value.query.Keys == params.Keys - PaginationFields
    ensures r.Success? ==> forall k :: k in params && k !in PaginationFields ==> r.value.query[k] == VStr(params[k])
    ensures r.Failure? ==> r.error == ValidationError("page") || r.error == ValidationError("size")
  {
    var data, query := SplitQueryParams(params);
    r := BuildPaginationQuery(data, query, toInt);
  }

  // ---------------------------------------------------------------------------
  // check_permission (the wired gate)
  // ---------------------------------------------------------------------------

  /** What the gate dependency does with a request: lets it through with the
      authenticated user or with `None`, or raises. */
  datatype GateOutcome = Allow(user: Option<User>) | Deny(error: Exception)

  /** The identity claim of a parsed token; `dict.get` yields `None` when it is absent. */
  function IdClaim(claims: map<string, Value>): Value {
    if "id" in claims then claims["id"] else VNone
  }

  /** The query `{'id': claim}` selects exactly the live rows whose id column equals the claim. */
  lemma ClaimQuerySelects(claim: Value)
    ensures forall u :: Selected(u, map["id" := claim]) <==> Live(u) && Column(u, "id") == claim
  {
    forall u ensures Selected(u, map["id" := claim]) <==> Live(u) && Column(u, "id") == claim {
      assert "id" in map["id" := claim];
    }
  }

  /** The gate once a declaration requiring authentication is known: the token
      is parsed and the first live user, in table order, holding its `id`
      claim is looked up. */
  function Authenticate(authorization: string, parseToken: string -> Result<map<string, Value>, Exception>,
                        fields: set<string>, table: seq<User>): (r: GateOutcome)
    requires ModelFields(fields)
    ensures parseToken(authorization).Failure? ==> r == Deny(parseToken(authorization).error)
    ensures r.Allow? ==> r.user.Some? && r.user.value in table && Live(r.user.value)
    ensures r.Allow? ==> Column(r.user.value, "id") == IdClaim(parseToken(authorization).value)
    ensures parseToken(authorization).Success? ==>
      (r == Deny(PermissionException(UserNotFound)) <==>
       forall u :: u in table && Live(u) ==> Column(u, "id") != IdClaim(parseToken(authorization).value))
    ensures (&& parseToken(authorization).Success?
             && exists u :: u in table && Live(u) && Column(u, "id") == IdClaim(parseToken(authorization).value)) ==>
      r.Allow? && r.user.Some?
    ensures r.Allow? ==>
      exists i :: && 0 <= i < |table| && r.user == Some(table[i])
                  && forall j :: 0 <= j < i ==> !(Live(table[j]) && Column(table[j], "id") == IdClaim(parseToken(authorization).value))
  {
    match parseToken(authorization)
    case Failure(e) => Deny(e)
    case Success(claims) =>
      var q := map["id" := IdClaim(claims)];
      assert Restrict(q, fields) == q;
      ClaimQuerySelects(IdClaim(claims));
      match FindObj(q, fields, table)
      case None =>
        assert forall u :: u in table && Live(u) ==> Column(u, "id") != IdClaim(claims) by {
          forall u | u in table && Live(u) ensures Column(u, "id") != IdClaim(claims) {
            var i :| 0 <= i < |table| && table[i] == u;
            assert !Selected(table[i], q);
          }
        }
        Deny(PermissionException(UserNotFound))
      case Some(i) =>
        assert Selected(table[i], q);
        Allow(Some(table[i]))
  }

  /** common/depends.py `check_permission`. The matched route, the token
      parser and the requirement predicate `is_require_auth` are inputs; the
      session is the user table. */
  function CheckPermission(route: Option<Route>, authorization: string,
                           isRequireAuth: RoutePermission -> bool,
                           parseToken: string -> Result<map<string, Value>, Exception>,
                           fields: set<string>, table: seq<User>): (r: GateOutcome)
    requires ModelFields(fields)
    ensures route.None? ==> r == Deny(PermissionException(NoPermissionMessage))
    ensures route.Some? && |route.value.openapiExtra| == 0 ==> r == Allow(None)
    ensures route.Some? && FromOpenapiExtra(route.value.openapiExtra).Failure? && |route.value.openapiExtra| > 0 ==>
      r == Deny(FromOpenapiExtra(route.value.openapiExtra).error)
    ensures route.Some? && |route.value.openapiExtra| > 0 && FromOpenapiExtra(route.value.openapiExtra).Success? ==>
      r == (if isRequireAuth(FromOpenapiExtra(route.value.openapiExtra).value) then Authenticate(authorization, parseToken, fields, table) else Allow(None))
  {
    match route
    case None => Deny(PermissionException(NoPermissionMessage))
    case Some(rt) =>
      if |rt.openapiExtra| == 0 then Allow(None)
      else match FromOpenapiExtra(rt.openapiExtra)
        case Failure(e) => Deny(e)
        case Success(p) =>
          if !isRequireAuth(p) then Allow(None)
          else Authenticate(authorization, parseToken, fields, table)
  }

  /** Letting a request through with a user means that user is live and
      holds the token's `id` claim; letting it through without one means the
      route asks for no authentication. */
  lemma AllowedUserIsAuthenticated(route: Option<Route>, authorization: string,
                                   isRequireAuth: RoutePermission -> bool,
                                   parseToken: string -> Result<map<string, Value>, Exception>,
                                   fields: set<string>, table: seq<User>)
    requires ModelFields(fields)
    ensures var r := CheckPermission(route, authorization, isRequireAuth, parseToken, fields, table);
      r.Allow? && r.user.Some? ==>
        route.Some? && FromOpenapiExtra(route.value.openapiExtra).Success?
        && isRequireAuth(FromOpenapiExtra(route.value.openapiExtra).value)
        && parseToken(authorization).Success?
        && r.user.value in table && Live(r.user.value)
        && Column(r.user.value, "id") == IdClaim(parseToken(authorization).value)
    ensures var r := CheckPermission(route, authorization, isRequireAuth, parseToken, fields, table);
      r.Allow? && r.user.None? ==>
        route.Some? && (|route.value.openapiExtra| == 0 || !isRequireAuth(FromOpenapiExtra(route.value.openapiExtra).value))
  {
  }

  /** A route that needs no authentication is decided without the token or
      the table: any token parser, any credentials and any session give the
      same outcome. */
  lemma NoAuthIgnoresTokenAndSession(route: Route, isRequireAuth: RoutePermission -> bool,
                                     a1: string, t1: string -> Result<map<string, Value>, Exception>, table1: seq<User>,
                                     a2: string, t2: string -> Result<map<string, Value>, Exception>, table2: seq<User>,
                                     fields: set<string>)
    requires ModelFields(fields)
    requires |route.openapiExtra| == 0 ||
      (FromOpenapiExtra(route.openapiExtra).Success? && !isRequireAuth(FromOpenapiExtra(route.openapiExtra).value))
    ensures CheckPermission(Some(route), a1, isRequireAuth, t1, fields, table1) == Allow(None)
    ensures CheckPermission(Some(route), a1, isRequireAuth, t1, fields, table1)
         == CheckPermission(Some(route), a2, isRequireAuth, t2, fields, table2)
  {
  }

  /** Metadata without the `route_permission` key is the all-empty
      declaration: the gate asks `is_require_auth` about that declaration. */
  lemma MissingKeyMeansDefaultDeclaration(route: Route, authorization: string,
                                          isRequireAuth: RoutePermission -> bool,
                                          parseToken: string -> Result<map<string, Value>, Exception>,
                                          fields: set<string>, table: seq<User>)
    requires ModelFields(fields)
    requires |route.openapiExtra| > 0 && GetExtraKey() !in route.openapiExtra
    ensures CheckPermission(Some(route), authorization, isRequireAuth, parseToken, fields, table)
         == (if isRequireAuth(DefaultPermission) then Authenticate(authorization, parseToken, fields, table) else Allow(None))
  {
  }

  /** For routes requiring authentication the declared tiers are never
      consulted: two routes registered with any two such declarations get
      the same outcome for the same request. */
  lemma TiersNotEnforced(p1: RoutePermission, p2: RoutePermission, authorization: string,
                         isRequireAuth: RoutePermission -> bool,
                         parseToken: string -> Result<map<string, Value>, Exception>,
                         fields: set<string>, table: seq<User>)
    requires ModelFields(fields)
    requires isRequireAuth(p1) && isRequireAuth(p2)
    ensures CheckPermission(Some(Route(ToOpenapiExtra(p1))), authorization, isRequireAuth, parseToken, fields, table)
         == CheckPermission(Some(Route(ToOpenapiExtra(p2))), authorization, isRequireAuth, parseToken, fields, table)
    ensures CheckPermission(Some(Route(ToOpenapiExtra(p1))), authorization, isRequireAuth, parseToken, fields, table)
         == Authenticate(authorization, parseToken, fields, table)
  {
    OpenapiExtraRoundTrip(p1);
    OpenapiExtraRoundTrip(p2);
    assert GetExtraKey() in ToOpenapiExtra(p1) && GetExtraKey() in ToOpenapiExtra(p2);
  }

  /** The wired gate is fail-open where the legacy one is fail-closed: on a
      route with empty metadata the wired gate lets the request through while
      the legacy gate refuses it. */
  lemma WiredGateOpenWhereLegacyCloses(authorization: string,
                                       isRequireAuth: RoutePermission -> bool,
                                       parseToken: string -> Result<map<string, Value>, Exception>,
                                       fields: set<string>, table: seq<User>)
    requires ModelFields(fields)
    ensures CheckPermission(Some(Route(map[])), authorization, isRequireAuth, parseToken, fields, table) == Allow(None)
    ensures LegacyCheckPermission(Some(Route(map[]))) == Outcome.Fail(PermissionException(NoPermissionMessage))
  {
  }
}

=== FILE: exceptions.dfy ===
/** The failure taxonomy of the backend: the two application exception
    classes of common/exception.py, the framework's `HTTPException`, and
    every other subclass of Python's `Exception`. Exceptions deriving only
    from `BaseException` (cancellation, interpreter exit) are not modelled. */
module Exceptions {

  import opened Wrappers

  /** A raised exception. `ApiException` and `PermissionException` are
      constructed with one message argument everywhere in the backend. */
  datatype Exception =
    | ApiException(message: string)
    | PermissionException(message: string)
    | HttpException(statusCode: int, detail: string)
    /** Any other subclass of `Exception`, by class name and message. */
    | OtherException(typeName: string, message: string)

  /** The exception classes an `except` clause can name; `CatchAllClass` is
      `except Exception`, which every modelled exception is an instance of. */
  datatype ExceptionClass = ApiClass | PermissionClass | HttpClass | CatchAllClass

  /** The `code` attribute set by the constructors of the two application classes. */
  const ApiCode: int := 500
  const PermissionCode: int := 401

  /** `e.code`; only the two application classes carry the attribute. */
  function Code(e: Exception): (r: Option<int>)
    ensures r.Some? <==> (e.ApiException? || e.PermissionException?)
    ensures e.ApiException? ==> r == Some(500)
    ensures e.PermissionException? ==> r == Some(401)
  {
    match e
    case ApiException(_) => Some(ApiCode)
    case PermissionException(_) => Some(PermissionCode)
    case _ => None
  }

  /** `str(e)`: a single constructor argument is rendered as itself; the
      framework's `HTTPException` renders as "<status>: <detail>". */
  function Str(e: Exception): string {
    match e
    case ApiException(m) => m
    case PermissionException(m) => m
    case HttpException(s, d) => IntToString(s) + ": " + d
    case OtherException(_, m) => m
  }

  /** `isinstance(e, cls)`. Both application classes derive directly from
      `Exception`, so neither is an instance of the other. */
  predicate IsInstance(e: Exception, cls: ExceptionClass) {
    match cls
    case ApiClass => e.ApiException?
    case PermissionClass => e.PermissionException?
    case HttpClass => e.HttpException?
    case CatchAllClass => true
  }

  /** The two application classes are unrelated: an `except` naming one never
      catches the other, and `str` returns the message given to the constructor. */
  lemma ApplicationClassesUnrelated(m: string)
    ensures !IsInstance(ApiException(m), PermissionClass)
    ensures !IsInstance(PermissionException(m), ApiClass)
    ensures !IsInstance(ApiException(m), HttpClass) && !IsInstance(PermissionException(m), HttpClass)
    ensures Str(ApiException(m)) == m && Str(PermissionException(m)) == m
  {
  }

  /** Decimal rendering of an integer, as Python's `str(int)`. */
  function NatToString(n: nat): (r: string)
    ensures |r| > 0
    decreases n
  {
    if n < 10 then [Digit(n)] else NatToString(n / 10) + [Digit(n % 10)]
  }

  function IntToString(i: int): string {
    if i < 0 then "-" + NatToString(-i) else NatToString(i)
  }
}

=== FILE: middleware.dfy ===
/** The boundary of every request (common/middleware.py): the `except` chain
    that turns a raised exception into a transport-200 JSON envelope, and the
    handler for request-validation errors. Logging and timing are left out. */
module Middleware {

  import opened Wrappers
  import opened Exceptions
  import Response

  /** What reaches the client: the handler's own response, or a JSON envelope. */
  datatype HttpResponse<R, D> = Forwarded(response: R) | Json(statusCode: int, content: Response.CommonResponse<D>)

  /** How `call_next` ended: with a response, or by raising. */
  datatype Handled<R> = Returned(response: R) | Raised(exception: Exception)

  /** The `except` clauses of the middleware, in source order. */
  const ExceptClauses: seq<ExceptionClass> := [PermissionClass, HttpClass, ApiClass, CatchAllClass]

  const HttpPrefix: string := "HTTP异常!\ndetail: "
  const UnknownPrefix: string := "未知异常,请联系管理员!\ndetail: "
  const ValidationCode: int := 501

  /** Python's rule for a `try` with several `except` clauses: the first clause
      whose class the exception is an instance of handles it. */
  function CatchingClause(clauses: seq<ExceptionClass>, e: Exception): (r: nat)
    requires CatchAllClass in clauses
    ensures r < |clauses| && IsInstance(e, clauses[r])
    ensures forall j :: 0 <= j < r ==> !IsInstance(e, clauses[j])
  {
    if IsInstance(e, clauses[0]) then 0 else 1 + CatchingClause(clauses[1..], e)
  }

  /** The envelope built by the body of the `except` clause for `cls`. */
  function ClauseEnvelope<D>(cls: ExceptionClass, e: Exception): Response.CommonResponse<D>
    requires IsInstance(e, cls)
  {
    match cls
    case PermissionClass => Response.Fail(Code(e).value, Some(Str(e)), None)
    case HttpClass => Response.Fail(e.statusCode, Some(HttpPrefix + e.detail), None)
    case ApiClass => Response.Fail(500, Some(Str(e)), None)
    case CatchAllClass => Response.Fail(500, Some(UnknownPrefix + Str(e)), None)
  }

  /** `handle_exception_middleware`: a normal response passes through
      unchanged; every exception (every subclass of `Exception`) becomes a
      transport-200 envelope without payload whose code and message depend on
      the exception's kind. */
  function HandleExceptionMiddleware<R, D>(outcome: Handled<R>): (r: HttpResponse<R, D>)
    ensures outcome.Returned? ==> r == Forwarded(outcome.response)
    ensures outcome.Raised? ==> r.Json? && r.statusCode == 200 && r.content.data.None?
    ensures outcome.Raised? && outcome.exception.PermissionException? ==>
      r.content == Response.CommonResponse(401, Some(outcome.exception.message), None)
    ensures outcome.Raised? && outcome.exception.HttpException? ==>
      r.content == Response.CommonResponse(outcome.exception.statusCode, Some(HttpPrefix + outcome.exception.detail), None)
    ensures outcome.Raised? && outcome.exception.ApiException? ==>
      r.content == Response.CommonResponse(500, Some(outcome.exception.message), None)
    ensures outcome.Raised? && outcome.exception.OtherException? ==>
      r.content == Response.CommonResponse(500, Some(UnknownPrefix + outcome.exception.message), None)
  {
    match outcome
    case Returned(resp) => Forwarded(resp)
    case Raised(e) =>
      var i := CatchingClause(ExceptClauses, e);
      assert ExceptClauses[0] == PermissionClass && ExceptClauses[1] == HttpClass && ExceptClauses[2] == ApiClass;
      Json(200, ClauseEnvelope(ExceptClauses[i], e))
  }

  /** `handler_validation_exception`: code 501 carrying the error's text. */
  function HandleValidationException<R, D>(errorText: string): (r: HttpResponse<R, D>)
    ensures r.Json? && r.statusCode == 200
    ensures r.content.code == 501 && r.content.msg == Some(errorText) && r.content.data.None?
  {
    Json(200, Response.Fail(ValidationCode, Some(errorText), None))
  }

  /** Every failure the boundary maps, whichever entry point maps it, reaches
      the client with transport status 200, no payload and a message. */
  lemma FailuresAreTransportOk<R, D>(e: Exception, errorText: string)
    ensures var r := HandleExceptionMiddleware<R, D>(Raised(e));
      r.Json? && r.statusCode == 200 && r.content.data.None? && r.content.msg.Some?
    ensures var v := HandleValidationException<R, D>(errorText);
      v.statusCode == 200 && v.content.data.None? && v.content.msg.Some?
  {
  }
}

=== FILE: pagination.dfy ===
/** Paging over the `user` table (common/pagination.py): the request and
    response schemas, and `pagination` as filter, then sort by the default
    order, then slice. */
module Pagination {

  import opened Wrappers
  import opened Db
  import opened UserModel

  /** `PaginationQuerySchema`. */
  datatype PaginationQuerySchema = PaginationQuerySchema(page: int, size: int, query: Query)

  const DefaultPage: int := 1
  const DefaultSize: int := 10

  /** `PaginationSchema`. */
  datatype PaginationSchema = PaginationSchema(page: int, size: int, hasPrev: bool, hasNext: bool, total: int)

  /** `p` occurs in `s`: the meaning of `LIKE '%p%'` when `p` holds no
      wildcard characters. */
  predicate IsSubstring(p: string, s: string)
    decreases |s|
  {
    (|p| <= |s| && s[..|p|] == p) || (|s| > 0 && IsSubstring(p, s[1..]))
  }

  predicate OccursAt(p: string, s: string, i: int) {
    0 <= i && i + |p| <= |s| && s[i..i + |p|] == p
  }

  lemma OccursShift(p: string, s: string, i: int)
    requires |s| > 0 && OccursAt(p, s[1..], i)
    ensures OccursAt(p, s, i + 1)
  {
    assert s[i + 1..i + 1 + |p|] == s[1..][i..i + |p|];
  }

  lemma OccursUnshift(p: string, s: string, i: int)
    requires i > 0 && OccursAt(p, s, i)
    ensures OccursAt(p, s[1..], i - 1)
  {
    assert s[1..][i - 1..i - 1 + |p|] == s[i..i + |p|];
  }

  /** Containment holds exactly when `p` occurs at some position of `s`. */
  lemma {:induction false} SubstringIffOccurs(p: string, s: string)
    ensures IsSubstring(p, s) <==> exists i :: OccursAt(p, s, i)
    decreases |s|
  {
    var prefix := |p| <= |s| && s[..|p|] == p;
    if prefix {
      assert s[0..0 + |p|] == s[..|p|];
      assert OccursAt(p, s, 0);
    }
    if |s| > 0 {
      SubstringIffOccurs(p, s[1..]);
      if !prefix && IsSubstring(p, s) {
        var i :| OccursAt(p, s[1..], i);
        OccursShift(p, s, i);
      }
      if i :| OccursAt(p, s, i) {
        if i > 0 {
          OccursUnshift(p, s, i);
        } else {
          assert s[..|p|] == s[i..i + |p|];
        }
      }
    } else {
      if i :| OccursAt(p, s, i) {
        assert |p| == 0;
        assert s[..|p|] == [] == p;
      }
    }
  }

  /** One filter: a string value matches by containment, any other value by equality. */
  predicate FilterHolds(column: Value, v: Value)
    ensures v.VStr? ==> (FilterHolds(column, v) <==> column.VStr? && exists i :: OccursAt(v.s, column.s, i))
    ensures !v.VStr? ==> (FilterHolds(column, v) <==> column == v)
  {
    if v.VStr? then
      column.VStr? && (SubstringIffOccurs(v.s, column.s); IsSubstring(v.s, column.s))
    else column == v
  }

  /** The filters `pagination` applies: the query restricted to model fields,
      with any caller-supplied `is_delete` dropped. */
  function FilterColumns(fields: set<string>, query: Query): (r: Query)
    ensures r.Keys == query.Keys * fields - {"is_delete"}
    ensures forall k :: k in r ==> r[k] == query[k]
  {
    map k | k in Restrict(query, fields) && k != "is_delete" :: query[k]
  }

  /** A row `pagination` counts and may return: live, and passing every filter. */
  predicate PageSelected(u: User, filters: Query)
    requires filters.Keys <= UserColumns
  {
    Live(u) && forall k :: k in filters ==> FilterHolds(Column(u, k), filters[k])
  }

  /** The selected rows of `table`, in table order. */
  function FilterRows(table: seq<User>, filters: Query): (r: seq<User>)
    requires filters.Keys <= UserColumns
    ensures forall x :: multiset(r)[x] == if PageSelected(x, filters) then multiset(table)[x] else 0
    ensures forall x :: x in r ==> PageSelected(x, filters)
  {
    if |table| == 0 then []
    else
      assert table == [table[0]] + table[1..];
      var rest := FilterRows(table[1..], filters);
      if PageSelected(table[0], filters) then [table[0]] + rest else rest
  }

  /** The filtered live rows in the default sort order: the sequence the
      count and the page query both draw from. */
  function Selection(fields: set<string>, query: Query, table: seq<User>): (r: seq<User>)
    requires fields <= UserColumns
    ensures SortedByDefault(r, BaseOf)
    ensures forall x :: multiset(r)[x] == if PageSelected(x, FilterColumns(fields, query)) then multiset(table)[x] else 0
  {
    SortByDefault(FilterRows(table, FilterColumns(fields, query)), BaseOf)
  }

  /** `(page - 1) * size`: the number of rows the page skips. */
  function Offset(page: int, size: int): (r: nat)
    requires page >= 1 && size >= 0
  {
    (page - 1) * size
  }

  /** `OFFSET offset LIMIT size`: the contiguous run of at most `size` rows
      starting at `offset`; nothing when `offset` is past the end. */
  function Slice<T>(rows: seq<T>, offset: nat, size: nat, base: T -> BaseColumns): (r: seq<T>)
    ensures |r| <= size
    ensures offset <= |rows| ==> |r| == if offset + size <= |rows| then size else |rows| - offset
    ensures offset <= |rows| ==> r == rows[offset..offset + |r|]
    ensures offset >= |rows| ==> r == []
    ensures SortedByDefault(rows, base) ==> SortedByDefault(r, base)
    ensures forall x :: x in r ==> x in rows
  {
    if offset >= |rows| then []
    else if offset + size <= |rows| then rows[offset..offset + size]
    else rows[offset..]
  }

  /** `pagination`: the total counts the selected rows; the page skips
      `(page - 1) * size` of them in the default order and returns at most
      `size`; `has_prev` and `has_next` follow from the page number and the total. */
  function Paginate(fields: set<string>, pq: PaginationQuerySchema, table: seq<User>): (r: (PaginationSchema, seq<User>))
    requires fields <= UserColumns
    requires pq.page >= 1 && pq.size >= 0
    ensures r.0.page == pq.page && r.0.size == pq.size
    ensures r.0.total == |Selection(fields, pq.query, table)|
    ensures r.0.hasPrev <==> pq.page != 1
    ensures r.0.hasNext <==> pq.page * pq.size < r.0.total
    ensures |r.1| <= pq.size
    ensures forall x :: x in r.1 ==> PageSelected(x, FilterColumns(fields, pq.query))
    ensures SortedByDefault(r.1, BaseOf)
    ensures r.1 == Slice(Selection(fields, pq.query, table), Offset(pq.page, pq.size), pq.size, BaseOf)
  {
    var rows := Selection(fields, pq.query, table);
    var total := |rows|;
    (PaginationSchema(pq.page, pq.size, pq.page != 1, pq.page * pq.size < total, total),
     Slice(rows, Offset(pq.page, pq.size), pq.size, BaseOf))
  }

  /** The filtered live rows of one page. */
  function PageRows(fields: set<string>, pq: PaginationQuerySchema, table: seq<User>): seq<User>
    requires fields <= UserColumns && pq.page >= 1 && pq.size >= 0
  {
    Paginate(fields, pq, table).1
  }

  /** Position `k` falls on page `k / size + 1`, at row `k % size` of it. */
  lemma PositionOnPage(k: nat, size: nat)
    requires size > 0
    ensures k / size + 1 >= 1 && 0 <= k % size < size
    ensures k == Offset(k / size + 1, size) + k % size
  {
    assert k == (k / size) * size + k % size;
  }

  /** Row `j` of a slice is row `offset + j` of the sequence it is cut from. */
  lemma SliceRow<T>(rows: seq<T>, offset: nat, size: nat, j: nat, base: T -> BaseColumns)
    requires j < size && offset + j < |rows|
    ensures j < |Slice(rows, offset, size, base)| && Slice(rows, offset, size, base)[j] == rows[offset + j]
  {
  }

  /** Row `j` of page `page` is row `(page - 1) * size + j` of the sorted
      selection, whenever the selection has that row. */
  lemma PageRowIsSelectionRow(fields: set<string>, query: Query, page: int, size: nat, table: seq<User>, j: nat)
    requires fields <= UserColumns && page >= 1 && j < size
    requires Offset(page, size) + j < |Selection(fields, query, table)|
    ensures j < |PageRows(fields, PaginationQuerySchema(page, size, query), table)|
    ensures PageRows(fields, PaginationQuerySchema(page, size, query), table)[j] == Selection(fields, query, table)[Offset(page, size) + j]
  {
    var rows := Selection(fields, query, table);
    var off := Offset(page, size);
    var pq := PaginationQuerySchema(page, size, query);
    assert PageRows(fields, pq, table) == Slice(rows, off, size, BaseOf);
    SliceRow(rows, off, size, j, BaseOf);
  }

  /** With a positive size the pages partition the selection: the row at
      position `k` of the sorted selection is row `k % size` of page
      `k / size + 1`. */
  lemma PagesPartitionSelection(fields: set<string>, query: Query, size: nat, table: seq<User>, k: nat)
    requires fields <= UserColumns && size > 0
    requires k < |Selection(fields, query, table)|
    ensures k / size + 1 >= 1
    ensures var pq := PaginationQuerySchema(k / size + 1, size, query);
      k % size < |PageRows(fields, pq, table)| && PageRows(fields, pq, table)[k % size] == Selection(fields, query, table)[k]
  {
    PositionOnPage(k, size);
    PageRowIsSelectionRow(fields, query, k / size + 1, size, table, k % size);
  }

  /** `has_next` holds exactly when the next page has rows. */
  lemma HasNextIffNextPageNonEmpty(fields: set<string>, pq: PaginationQuerySchema, table: seq<User>)
    requires fields <= UserColumns && pq.page >= 1 && pq.size > 0
    ensures Paginate(fields, pq, table).0.hasNext <==> |PageRows(fields, pq.(page := pq.page + 1), table)| > 0
  {
    var next := pq.(page := pq.page + 1);
    assert Offset(next.page, next.size) == pq.page * pq.size;
  }

  /** A caller-supplied `is_delete` filter and keys that are not model
      fields change neither the total nor the rows. */
  lemma QueryKeysIgnored(fields: set<string>, pq: PaginationQuerySchema, table: seq<User>, k: string, v: Value)
    requires fields <= UserColumns && pq.page >= 1 && pq.size >= 0
    requires k == "is_delete" || k !in fields
    ensures Paginate(fields, pq.(query := pq.query[k := v]), table) == Paginate(fields, pq, table)
  {
    assert FilterColumns(fields, pq.query[k := v]) == FilterColumns(fields, pq.query);
  }

  /** The selection's contract pins it down: on a table with unique ids, any
      sorted arrangement of exactly the selected rows is the selection. */
  lemma SelectionDetermined(fields: set<string>, query: Query, table: seq<User>, s: seq<User>)
    requires fields <= UserColumns
    requires DistinctIds(table, BaseOf)
    requires SortedByDefault(s, BaseOf)
    requires forall x :: multiset(s)[x] == if PageSelected(x, FilterColumns(fields, query)) then multiset(table)[x] else 0
    ensures s == Selection(fields, query, table)
  {
    var sel := Selection(fields, query, table);
    assert multiset(s) == multiset(sel);
    DistinctIdsOfSubMultiset(sel, table);
    SortedArrangementUnique(sel, s, BaseOf);
  }

  lemma DistinctIdsOfSubMultiset(a: seq<User>, b: seq<User>)
    requires DistinctIds(b, BaseOf)
    requires forall x :: multiset(a)[x] <= multiset(b)[x]
    ensures DistinctIds(a, BaseOf)
  {
    forall i, j | 0 <= i < |a| && 0 <= j < |a| && i != j ensures a[i].base.id != a[j].base.id {
      assert a[i] in multiset(b) && a[j] in multiset(b);
      var p :| 0 <= p < |b| && b[p] == a[i];
      var q :| 0 <= q < |b| && b[q] == a[j];
      if p == q {
        MultiplicityAtLeastTwo(a, i, j);
        MultiplicityOne(b, p);
        assert false;
      }
    }
  }

  lemma MultiplicityAtLeastTwo<T>(a: seq<T>, i: int, j: int)
    requires 0 <= i < j < |a| || 0 <= j < i < |a|
    requires a[i] == a[j]
    ensures multiset(a)[a[i]] >= 2
  {
    var lo := if i < j then i else j;
    var hi := if i < j then j else i;
    assert a == a[..lo] + [a[lo]] + a[lo + 1..];
    assert a[hi] in a[lo + 1..];
  }

  lemma MultiplicityOne(b: seq<User>, p: int)
    requires DistinctIds(b, BaseOf) && 0 <= p < |b|
    ensures multiset(b)[b[p]] == 1
  {
    assert b == b[..p] + [b[p]] + b[p + 1..];
    assert b[p] !in b[..p];
    assert b[p] !in b[p + 1..];
  }
}

=== FILE: permission_enum.dfy ===
/** The closed code tables of the three permission tiers
    (common/permission_enum.py): menu, interface and button. */
module PermissionEnum {

  import opened Wrappers

  /** `PermissionEnumValue`: the value carried by every enumeration member. */
  datatype PermissionEnumValue = PermissionEnumValue(name: string, code: string, desc: Option<string>)

  /** `MenuEnum`: `USER_MANAGE`, `ROLE_MANAGE`, `PERMISSION_MANAGE`. */
  datatype MenuEnum = UserManage | RoleManage | PermissionManage

  /** `InterfaceEnum`: `USER_GET`, `USER_POST`, `USER_PUT`, `USER_DEL`, `USER_ENABLE`. */
  datatype InterfaceEnum = UserGet | UserPost | UserPut | UserDel | UserEnable

  /** `ButtionEnum`: `USER_ADD`, `USER_EDIT`, `USER_DEL`. Its `USER_DEL` member is `UserDelete` here, so that it
      is not confused with the interface member `USER_DEL` (`UserDel`). */
  datatype ButtonEnum = UserAdd | UserEdit | UserDelete

  function MenuValue(m: MenuEnum): PermissionEnumValue {
    match m
    case UserManage => PermissionEnumValue("用户管理", "user-manage", None)
    case RoleManage => PermissionEnumValue("角色管理", "role-manage", None)
    case PermissionManage => PermissionEnumValue("权限管理", "permission-manage", None)
  }

  function InterfaceValue(i: InterfaceEnum): PermissionEnumValue {
    match i
    case UserGet => PermissionEnumValue("创建用户信息", "/users/get", None)
    case UserPost => PermissionEnumValue("创建用户", "/users/post", None)
    case UserPut => PermissionEnumValue("修改用户信息", "/users/put", None)
    case UserDel => PermissionEnumValue("删除用户信息", "/users/delete", None)
    case UserEnable => PermissionEnumValue("用户启用禁用", "/users/delete", None)
  }

  function ButtonValue(b: ButtonEnum): PermissionEnumValue {
    match b
    case UserAdd => PermissionEnumValue("用户新增", "user:add", None)
    case UserEdit => PermissionEnumValue("用户编辑", "user:edit", None)
    case UserDelete => PermissionEnumValue("用户删除", "user:del", None)
  }

  function MenuCode(m: MenuEnum): string { MenuValue(m).code }
  function InterfaceCode(i: InterfaceEnum): string { InterfaceValue(i).code }
  function ButtonCode(b: ButtonEnum): string { ButtonValue(b).code }

  /** The members of each enumeration in declaration order (`__members__`). */
  const MenuMembers: seq<MenuEnum> := [UserManage, RoleManage, PermissionManage]
  const InterfaceMembers: seq<InterfaceEnum> := [UserGet, UserPost, UserPut, UserDel, UserEnable]
  const ButtonMembers: seq<ButtonEnum> := [UserAdd, UserEdit, UserDelete]

  /** `PermissionEnum.all()` for each of the three tables. */
  function MenuAll(): seq<PermissionEnumValue> { MapSeq(MenuMembers, MenuValue) }
  function InterfaceAll(): seq<PermissionEnumValue> { MapSeq(InterfaceMembers, InterfaceValue) }
  function ButtonAll(): seq<PermissionEnumValue> { MapSeq(ButtonMembers, ButtonValue) }

  /** `all()` lists every member's value exactly once, in declaration order:
      three menu, five interface and three button entries. */
  lemma AllListsEachMemberOnce()
    ensures |MenuAll()| == 3 && |InterfaceAll()| == 5 && |ButtonAll()| == 3
    ensures forall m: MenuEnum :: m in MenuMembers
    ensures forall i: InterfaceEnum :: i in InterfaceMembers
    ensures forall b: ButtonEnum :: b in ButtonMembers
    ensures forall j, k :: 0 <= j < k < 3 ==> MenuMembers[j] != MenuMembers[k] && ButtonMembers[j] != ButtonMembers[k]
    ensures forall k :: 0 <= k < 3 ==> MenuAll()[k] == MenuValue(MenuMembers[k])
    ensures forall k :: 0 <= k < 5 ==> InterfaceAll()[k] == InterfaceValue(InterfaceMembers[k])
    ensures forall k :: 0 <= k < 3 ==> ButtonAll()[k] == ButtonValue(ButtonMembers[k])
    ensures forall j, k :: 0 <= j < k < 5 ==> InterfaceAll()[j] != InterfaceAll()[k]
  {
    forall m: MenuEnum ensures m in MenuMembers {
      match m
      case UserManage => assert MenuMembers[0] == m;
      case RoleManage => assert MenuMembers[1] == m;
      case PermissionManage => assert MenuMembers[2] == m;
    }
    forall i: InterfaceEnum ensures i in InterfaceMembers {
      match i
      case UserGet => assert InterfaceMembers[0] == i;
      case UserPost => assert InterfaceMembers[1] == i;
      case UserPut => assert InterfaceMembers[2] == i;
      case UserDel => assert InterfaceMembers[3] == i;
      case UserEnable => assert InterfaceMembers[4] == i;
    }
    forall b: ButtonEnum ensures b in ButtonMembers {
      match b
      case UserAdd => assert ButtonMembers[0] == b;
      case UserEdit => assert ButtonMembers[1] == b;
      case UserDelete => assert ButtonMembers[2] == b;
    }
  }

  /** Menu codes and button codes identify their member. */
  lemma MenuAndButtonCodesDistinct()
    ensures forall a: MenuEnum, b: MenuEnum :: MenuCode(a) == MenuCode(b) ==> a == b
    ensures forall a: ButtonEnum, b: ButtonEnum :: ButtonCode(a) == ButtonCode(b) ==> a == b
  {
  }

  /** Interface codes are not unique: `USER_DEL` and `USER_ENABLE` share
      "/users/delete"; every other pair of interface members differs. */
  lemma InterfaceCodesCollide()
    ensures UserDel != UserEnable && InterfaceCode(UserDel) == InterfaceCode(UserEnable) == "/users/delete"
    ensures forall a: InterfaceEnum, b: InterfaceEnum ::
      InterfaceCode(a) == InterfaceCode(b) ==> a == b || {a, b} == {UserDel, UserEnable}
  {
  }

  /** No code string is shared between two tiers. */
  lemma TierCodesDisjoint()
    ensures forall m: MenuEnum, i: InterfaceEnum :: MenuCode(m) != InterfaceCode(i)
    ensures forall m: MenuEnum, b: ButtonEnum :: MenuCode(m) != ButtonCode(b)
    ensures forall i: InterfaceEnum, b: ButtonEnum :: InterfaceCode(i) != ButtonCode(b)
  {
  }
}

=== FILE: response.dfy ===
/** The uniform response envelope of common/response.py. */
module Response {

  import opened Wrappers

  /** `CommonResponse`: `{code, msg, data}`; `code == 200` means success. */
  datatype CommonResponse<D> = CommonResponse(code: int, msg: Option<string>, data: Option<D>)

  const SuccessCode: int := 200
  const DefaultFailCode: int := -1

  /** `CommonResponse.success(msg, data)`: the success code with the given message and payload. */
  function Success<D>(msg: Option<string>, data: Option<D>): (r: CommonResponse<D>)
    ensures r.code == 200
    ensures r.msg == msg && r.data == data
  {
    CommonResponse(SuccessCode, msg, data)
  }

  /** `CommonResponse.fail(code, msg, data)`: every argument passes through unchanged. */
  function Fail<D>(code: int, msg: Option<string>, data: Option<D>): (r: CommonResponse<D>)
    ensures r.code == code && r.msg == msg && r.data == data
  {
    CommonResponse(code, msg, data)
  }

  /** The defaults of both constructors: `success()` carries neither message
      nor payload, and `fail()` uses code -1. */
  lemma ConstructorDefaults<D>()
    ensures Success<D>(None, None) == CommonResponse(200, None, None)
    ensures Fail<D>(DefaultFailCode, None, None) == CommonResponse(-1, None, None)
    ensures Fail<D>(DefaultFailCode, None, None) != Success<D>(None, None)
  {
  }
}

=== FILE: schemas.dfy ===
/** The request and response schemas of schemas/user.py: the field
    constraints pydantic enforces on login and creation bodies, the
    all-optional update body, and the output projection of a user row. */
module UserSchemas {

  import opened Wrappers
  import opened Db
  import opened UserModel

  /** A request body as received: every field present or absent. */
  datatype LoginBody = LoginBody(name: Option<string>, password: Option<string>)

  datatype CreateBody = CreateBody(
    name: Option<string>,
    password: Option<string>,
    nickname: Option<string>,
    gender: Option<Gender>,
    email: Option<string>,
    phone: Option<string>,
    avatar: Option<string>,
    address: Option<string>,
    introduce: Option<string>)

  /** One reported validation failure: the field and what is wrong with it. */
  datatype FieldError = Missing(field: string) | TooShort(field: string) | TooLong(field: string)

  datatype UserLoginSchema = UserLoginSchema(name: string, password: string)

  datatype UserCreateSchema = UserCreateSchema(
    name: string,
    password: string,
    nickname: Option<string>,
    gender: Option<Gender>,
    email: Option<string>,
    phone: Option<string>,
    avatar: Option<string>,
    address: Option<string>,
    introduce: Option<string>)

  /** `UserUpdateSchema`: every field optional; there is no password field. */
  datatype UserUpdateSchema = UserUpdateSchema(
    name: Option<string>,
    nickname: Option<string>,
    gender: Option<Gender>,
    email: Option<string>,
    phone: Option<string>,
    avatar: Option<string>,
    address: Option<string>,
    introduce: Option<string>)

  /** `UserUpdateSchema()`: every field defaults to None. */
  const EmptyUpdate: UserUpdateSchema := UserUpdateSchema(None, None, None, None, None, None, None, None)

  const PasswordMinLength: int := 4
  const PasswordMaxLength: int := 24

  /** The errors of the required `name` field. */
  function NameErrors(name: Option<string>): seq<FieldError> {
    if name.None? then [Missing("name")] else []
  }

  /** The errors of the required `password` field with its length bounds. */
  function PasswordErrors(password: Option<string>): (r: seq<FieldError>)
    ensures r == [] <==> password.Some? && 4 <= |password.value| <= 24
    ensures password.None? ==> r == [Missing("password")]
    ensures password.Some? && |password.value| < 4 ==> r == [TooShort("password")]
    ensures password.Some? && |password.value| > 24 ==> r == [TooLong("password")]
  {
    match password
    case None => [Missing("password")]
    case Some(p) =>
      if |p| < PasswordMinLength then [TooShort("password")]
      else if |p| > PasswordMaxLength then [TooLong("password")]
      else []
  }

  /** Validation of a login body: a name is required and the password must
      have 4 to 24 characters; all failures are reported together. */
  function ValidateLogin(body: LoginBody): (r: Result<UserLoginSchema, seq<FieldError>>)
    ensures r.Success? <==> body.name.Some? && body.password.Some? && 4 <= |body.password.value| <= 24
    ensures r.Success? ==> r.value.name == body.name.value && r.value.password == body.password.value
    ensures body.name.None? ==> r.Failure? && Missing("name") in r.error
    ensures r.Failure? ==> (Missing("name") in r.error <==> body.name.None?)
    ensures r.Failure? ==> forall e :: e in r.error ==> e.field == "name" || e.field == "password"
    ensures r.Failure? ==> forall e :: e in r.error && e.field == "name" ==> e == Missing("name")
    ensures r.Failure? ==> forall e :: e in r.error && e.field == "password" <==> e in PasswordErrors(body.password)
  {
    var errors := NameErrors(body.name) + PasswordErrors(body.password);
    if errors == [] then Success(UserLoginSchema(body.name.value, body.password.value)) else Failure(errors)
  }

  /** Validation of a creation body: the same rules for name and password;
      every other field is optional. */
  function ValidateCreate(body: CreateBody): (r: Result<UserCreateSchema, seq<FieldError>>)
    ensures r.Success? <==> body.name.Some? && body.password.Some? && 4 <= |body.password.value| <= 24
    ensures r.Success? ==> r.value.name == body.name.value && r.value.password == body.password.value
    ensures r.Success? ==>
      && r.value.nickname == body.nickname && r.value.gender == body.gender && r.value.email == body.email
      && r.value.phone == body.phone && r.value.avatar == body.avatar && r.value.address == body.address
      && r.value.introduce == body.introduce
    ensures body.name.None? ==> r.Failure? && Missing("name") in r.error
    ensures r.Failure? ==> (Missing("name") in r.error <==> body.name.None?)
    ensures r.Failure? ==> forall e :: e in r.error ==> e.field == "name" || e.field == "password"
    ensures r.Failure? ==> forall e :: e in r.error && e.field == "name" ==> e == Missing("name")
    ensures r.Failure? ==> forall e :: e in r.error && e.field == "password" <==> e in PasswordErrors(body.password)
  {
    var errors := NameErrors(body.name) + PasswordErrors(body.password);
    if errors == [] then
      Success(UserCreateSchema(body.name.value, body.password.value, body.nickname, body.gender, body.email,
                               body.phone, body.avatar, body.address, body.introduce))
    else Failure(errors)
  }

  /** `UserSchema`: what a user row looks like to clients. */
  datatype UserSchema = UserSchema(
    id: int,
    uuid: nat,
    ctime: DateTime,
    utime: DateTime,
    createdBy: Option<int>,
    updatedBy: Option<int>,
    enable: bool,
    name: string,
    nickname: Option<string>,
    gender: Gender,
    email: Option<string>,
    phone: Option<string>,
    avatar: Option<string>,
    address: Option<string>,
    introduce: Option<string>)

  /** A timestamp column through the schema: `format_datetime` turns it into
      text, which the `datetime`-typed field then reads back. */
  function SchemaTimestamp(t: DateTime): (r: DateTime)
    requires t.Valid()
    ensures r == t.TruncateToSecond()
  {
    var text := FormatDatetimeField(VTime(t));
    ParseDateTime(text.s).value
  }

  /** `UserSchema.model_validate(row)`: timestamps are kept to the second and
      the password hash, deletion flag, metadata and role are not exposed. */
  function ToUserSchema(u: User): (r: UserSchema)
    requires u.base.ctime.Valid() && u.base.utime.Valid()
    ensures r.id == u.base.id && r.name == u.name && r.enable == u.base.enable
    ensures r.ctime == u.base.ctime.TruncateToSecond() && r.utime == u.base.utime.TruncateToSecond()
    ensures r.uuid == u.base.uuid && r.createdBy == u.base.createdBy && r.updatedBy == u.base.updatedBy
    ensures r.nickname == u.nickname && r.gender == u.gender && r.email == u.email && r.phone == u.phone
    ensures r.avatar == u.avatar && r.address == u.address && r.introduce == u.introduce
  {
    UserSchema(u.base.id, u.base.uuid, SchemaTimestamp(u.base.ctime), SchemaTimestamp(u.base.utime),
               u.base.createdBy, u.base.updatedBy, u.base.enable, u.name, u.nickname, u.gender,
               u.email, u.phone, u.avatar, u.address, u.introduce)
  }

  /** The output schema does not depend on the stored password hash, so no
      client-visible field can reveal it; nor do sub-second timestamp digits show. */
  lemma UserSchemaHidesPassword(u: User, otherHash: string, ctimeMicros: int)
    requires u.base.ctime.Valid() && u.base.utime.Valid() && 0 <= ctimeMicros < 1000000
    ensures ToUserSchema(u.(hashedPassword := otherHash)) == ToUserSchema(u)
    ensures ToUserSchema(u.(base := u.base.(ctime := u.base.ctime.(microsecond := ctimeMicros)))) == ToUserSchema(u)
  {
  }
}

=== FILE: user_model.dfy ===
/** The `user` table row (models/user.py): the base columns of
    `DBBaseModel` plus the user's own columns. Password hashing is a
    caller-supplied function; relationships are not modelled. */
module UserModel {

  import opened Wrappers
  import opened Db

  /** `GenderEnum`. */
  datatype Gender = Male | Female | Unknown

  /** The member name SQLAlchemy's `Enum` column stores. */
  function GenderName(g: Gender): string {
    match g
    case Male => "MALE"
    case Female => "FEMALE"
    case Unknown => "UNKNOWN"
  }

  /** `UserModel`. */
  datatype User = User(
    base: BaseColumns,
    name: string,
    nickname: Option<string>,
    hashedPassword: string,
    gender: Gender,
    email: Option<string>,
    phone: Option<string>,
    avatar: Option<string>,
    address: Option<string>,
    introduce: Option<string>,
    rid: Option<int>)

  function BaseOf(u: User): BaseColumns {
    u.base
  }

  /** A row that has not been soft-deleted. */
  predicate Live(u: User) {
    !u.base.isDelete
  }

  /** The column names of the `user` table. */
  const UserColumns: set<string> := {
    "id", "uuid", "ctime", "utime", "created_by", "updated_by", "is_delete", "enable", "meta",
    "name", "nickname", "hashed_password", "gender", "email", "phone", "avatar", "address",
    "introduce", "rid"}

  /** `getattr(row, column)`, as the database compares it. */
  function Column(u: User, k: string): Value
    requires k in UserColumns
  {
    if k == "id" then VInt(u.base.id)
    else if k == "uuid" then VUuid(u.base.uuid)
    else if k == "ctime" then VTime(u.base.ctime)
    else if k == "utime" then VTime(u.base.utime)
    else if k == "created_by" then OptionalInt(u.base.createdBy)
    else if k == "updated_by" then OptionalInt(u.base.updatedBy)
    else if k == "is_delete" then VBool(u.base.isDelete)
    else if k == "enable" then VBool(u.base.enable)
    else if k == "meta" then (if u.base.meta.Some? then VJson(u.base.meta.value) else VNone)
    else if k == "name" then VStr(u.name)
    else if k == "nickname" then OptionalStr(u.nickname)
    else if k == "hashed_password" then VStr(u.hashedPassword)
    else if k == "gender" then VEnum(GenderName(u.gender))
    else if k == "email" then OptionalStr(u.email)
    else if k == "phone" then OptionalStr(u.phone)
    else if k == "avatar" then OptionalStr(u.avatar)
    else if k == "address" then OptionalStr(u.address)
    else if k == "introduce" then OptionalStr(u.introduce)
    else OptionalInt(u.rid)
  }
}

=== FILE: user_service.dfy ===
/** The user service of services/user.py over an in-memory `user` table.
    Each operation takes the table and returns the new table, or the
    exception the service raises. The table's one invariant: primary keys
    are unique and no two live (not soft-deleted) users share a name. */
module UserService {

  import opened Wrappers
  import opened Db
  import opened Exceptions
  import opened UserModel
  import opened UserSchemas

  const UserNotFound: string := "用户不存在"
  const NameTaken: string := "用户名已存在，请换个用户名"
  const UserExists: string := "该用户已存在"

  /** What `get_db_model_fields(UserModel)` returns is taken as a parameter:
      a set of column names that includes `id` and `name`. */
  predicate ModelFields(fields: set<string>) {
    "id" in fields && "name" in fields && fields <= UserColumns
  }

  function IdQuery(id: int): Query {
    map["id" := VInt(id)]
  }

  function NameQuery(name: string): Query {
    map["name" := VStr(name)]
  }

  predicate Matches(u: User, q: Query)
    requires q.Keys <= UserColumns
  {
    forall k :: k in q ==> Column(u, k) == q[k]
  }

  /** A row the query selects: live and matching every filter. */
  predicate Selected(u: User, q: Query)
    requires q.Keys <= UserColumns
  {
    Live(u) && Matches(u, q)
  }

  lemma IdQuerySelects(id: int)
    ensures forall u :: Selected(u, IdQuery(id)) <==> Live(u) && u.base.id == id
  {
    forall u ensures Selected(u, IdQuery(id)) <==> Live(u) && u.base.id == id {
      assert "id" in IdQuery(id);
      assert Column(u, "id") == VInt(u.base.id);
    }
  }

  lemma NameQuerySelects(name: string)
    ensures forall u :: Selected(u, NameQuery(name)) <==> Live(u) && u.name == name
  {
    forall u ensures Selected(u, NameQuery(name)) <==> Live(u) && u.name == name {
      assert "name" in NameQuery(name);
      assert Column(u, "name") == VStr(u.name);
    }
  }

  /** The position of the first selected row (`.first()`; rows are taken in table order). */
  function FirstSelected(table: seq<User>, q: Query): (r: Option<nat>)
    requires q.Keys <= UserColumns
    ensures r.Some? ==> r.value < |table| && Selected(table[r.value], q)
    ensures r.Some? ==> forall j :: 0 <= j < r.value ==> !Selected(table[j], q)
    ensures r.None? ==> forall j :: 0 <= j < |table| ==> !Selected(table[j], q)
  {
    if |table| == 0 then None
    else if Selected(table[0], q) then Some(0)
    else match FirstSelected(table[1..], q)
      case Some(i) => Some(i + 1)
      case None => None
  }

  /** The position of the row `get_obj_by_query` returns. */
  function FindObj(query: Query, fields: set<string>, table: seq<User>): Option<nat>
    requires fields <= UserColumns
  {
    FirstSelected(table, Restrict(query, fields))
  }

  /** `get_obj_by_query`: keys that are not model fields are dropped, and the
      first live row matching all remaining keys is returned. */
  function GetObjByQuery(query: Query, fields: set<string>, table: seq<User>): (r: Option<User>)
    requires fields <= UserColumns
    ensures r.Some? ==> r.value in table && Live(r.value)
    ensures r.Some? ==> forall k :: k in query && k in fields ==> Column(r.value, k) == query[k]
    ensures r.None? ==> forall u :: u in table && Live(u) ==> !Matches(u, Restrict(query, fields))
  {
    match FindObj(query, fields, table)
    case Some(i) => Some(table[i])
    case None => None
  }

  /** A key that is not a model field has no influence on the lookup. */
  lemma GetObjIgnoresUnknownKeys(query: Query, k: string, v: Value, fields: set<string>, table: seq<User>)
    requires fields <= UserColumns && k !in fields
    ensures GetObjByQuery(query[k := v], fields, table) == GetObjByQuery(query, fields, table)
  {
    assert Restrict(query[k := v], fields) == Restrict(query, fields);
  }

  /** Looking a user up by id finds exactly the live row with that id. */
  lemma LookupById(id: int, fields: set<string>, table: seq<User>)
    requires ModelFields(fields) && UniqueIds(table)
    ensures FindObj(IdQuery(id), fields, table).Some? <==> exists i :: 0 <= i < |table| && Live(table[i]) && table[i].base.id == id
    ensures forall i :: 0 <= i < |table| && Live(table[i]) && table[i].base.id == id ==> FindObj(IdQuery(id), fields, table) == Some(i)
  {
    assert Restrict(IdQuery(id), fields) == IdQuery(id);
    IdQuerySelects(id);
    var r := FindObj(IdQuery(id), fields, table);
    forall i | 0 <= i < |table| && Live(table[i]) && table[i].base.id == id ensures r == Some(i) {
      assert Selected(table[i], IdQuery(id));
    }
  }

  /** A live row holding the id is always found by the id lookup. */
  lemma LiveIdFound(id: int, fields: set<string>, table: seq<User>)
    requires ModelFields(fields)
    ensures (exists u :: u in table && Live(u) && u.base.id == id) ==> FindObj(IdQuery(id), fields, table).Some?
  {
    assert Restrict(IdQuery(id), fields) == IdQuery(id);
    IdQuerySelects(id);
    if u :| u in table && Live(u) && u.base.id == id {
      var i :| 0 <= i < |table| && table[i] == u;
      assert Selected(table[i], IdQuery(id));
    }
  }

  // ---------------------------------------------------------------------------
  // The table invariant
  // ---------------------------------------------------------------------------

  ghost predicate UniqueIds(table: seq<User>) {
    forall i, j :: 0 <= i < |table| && 0 <= j < |table| && i != j ==> table[i].base.id != table[j].base.id
  }

  ghost predicate LiveNamesUnique(table: seq<User>) {
    forall i, j :: 0 <= i < |table| && 0 <= j < |table| && i != j && Live(table[i]) && Live(table[j]) ==>
      table[i].name != table[j].name
  }

  ghost predicate Wf(table: seq<User>) {
    UniqueIds(table) && LiveNamesUnique(table)
  }

  // ---------------------------------------------------------------------------
  // check_name
  // ---------------------------------------------------------------------------

  /** Whether `name` is free for user `id`: no live user holds it, or the
      (first) live holder is `id` itself. */
  function NameFree(id: int, name: string, fields: set<string>, table: seq<User>): (r: bool)
    requires ModelFields(fields)
    ensures LiveNamesUnique(table) ==>
      (r <==> forall u :: u in table && Live(u) && u.name == name ==> u.base.id == id)
  {
    assert Restrict(NameQuery(name), fields) == NameQuery(name);
    NameQuerySelects(name);
    match GetObjByQuery(NameQuery(name), fields, table)
    case None => true
    case Some(o) =>
      assert LiveNamesUnique(table) ==> forall u :: u in table && Live(u) && u.name == name ==> u == o by {
        if LiveNamesUnique(table) {
          forall u | u in table && Live(u) && u.name == name ensures u == o {
            var i :| 0 <= i < |table| && table[i] == u;
            var j :| 0 <= j < |table| && table[j] == o;
            assert i == j;
          }
        }
      }
      o.base.id == id
  }

  /** `check_name` as written: an empty name is treated like a missing one
      and always accepted. */
  function CheckName(id: int, name: Option<string>, fields: set<string>, table: seq<User>): (r: bool)
    requires ModelFields(fields)
    ensures (name.None? || name == Some("")) ==> r
    ensures name.Some? && name.value != "" && LiveNamesUnique(table) ==>
      (r <==> forall u :: u in table && Live(u) && u.name == name.value ==> u.base.id == id)
  {
    if name.None? || name.value == "" then true else NameFree(id, name.value, fields, table)
  }

  /** `check_name` as the uniqueness rule intends: only an absent name (no
      change requested) is exempt; the empty name is checked like any other. */
  function CheckNameCorrected(id: int, name: Option<string>, fields: set<string>, table: seq<User>): (r: bool)
    requires ModelFields(fields)
    ensures name.None? ==> r
    ensures name.Some? && LiveNamesUnique(table) ==>
      (r <==> forall u :: u in table && Live(u) && u.name == name.value ==> u.base.id == id)
  {
    if name.None? then true else NameFree(id, name.value, fields, table)
  }

  // ---------------------------------------------------------------------------
  // create_user
  // ---------------------------------------------------------------------------

  function MaxId(table: seq<User>): (r: int)
    ensures r >= 0
    ensures forall u :: u in table ==> u.base.id <= r
  {
    if |table| == 0 then 0
    else
      var m := MaxId(table[1..]);
      assert forall u :: u in table ==> u == table[0] || u in table[1..];
      if table[0].base.id > m then table[0].base.id else m
  }

  /** The autoincrement key of the next inserted row; rows are never
      physically removed, so it exceeds every key in the table. */
  function NextId(table: seq<User>): (r: int)
    ensures r >= 1
    ensures forall u :: u in table ==> u.base.id < r
  {
    MaxId(table) + 1
  }

  /** `UserModel(**data.model_dump())`: the password goes through the hashing
      setter, a gender of None leaves the column default, and the base
      columns take their defaults. */
  function NewUser(data: UserCreateSchema, hash: string -> string, id: int, uuid: nat, now: DateTime): (u: User)
    ensures Live(u) && u.base.enable && u.base.id == id && u.base.uuid == uuid
    ensures u.base.ctime == now && u.base.utime == now
    ensures u.base.createdBy.None? && u.base.updatedBy.None? && u.base.meta.None? && u.rid.None?
    ensures u.name == data.name && u.hashedPassword == hash(data.password) && u.gender == data.gender.GetOr(Unknown)
    ensures u.nickname == data.nickname && u.email == data.email && u.phone == data.phone
    ensures u.avatar == data.avatar && u.address == data.address && u.introduce == data.introduce
  {
    User(NewBaseColumns(id, uuid, now), data.name, data.nickname, hash(data.password), data.gender.GetOr(Unknown),
         data.email, data.phone, data.avatar, data.address, data.introduce, None)
  }

  /** `create_user`: refused when a live user already has the name;
      otherwise exactly one new live, enabled row is appended. */
  function CreateUser(data: UserCreateSchema, hash: string -> string, uuid: nat, now: DateTime, table: seq<User>)
    : (r: Result<(seq<User>, User), Exception>)
    ensures r.Failure? <==> exists u :: u in table && Live(u) && u.name == data.name
    ensures r.Failure? ==> r.error == ApiException("该用户已存在")
    ensures r.Success? ==> r.value.0 == table + [r.value.1]
    ensures r.Success? ==> var u := r.value.1;
      && Live(u) && u.base.enable && u.name == data.name && u.hashedPassword == hash(data.password)
      && u.gender == data.gender.GetOr(Unknown) && u.base.ctime == now && u.base.utime == now
      && u.nickname == data.nickname && u.email == data.email && u.phone == data.phone
      && u.avatar == data.avatar && u.address == data.address && u.introduce == data.introduce
      && u.base.uuid == uuid && u.base.createdBy.None? && u.base.updatedBy.None? && u.base.meta.None?
      && u.rid.None?
      && (forall v :: v in table ==> v.base.id != u.base.id)
  {
    NameQuerySelects(data.name);
    match FirstSelected(table, NameQuery(data.name))
    case Some(i) =>
      Failure(ApiException(UserExists))
    case None =>
      assert forall u :: u in table && Live(u) ==> u.name != data.name by {
        forall u | u in table && Live(u) ensures u.name != data.name {
          var i :| 0 <= i < |table| && table[i] == u;
          assert !Selected(table[i], NameQuery(data.name));
        }
      }
      var u := NewUser(data, hash, NextId(table), uuid, now);
      Success((table + [u], u))
  }

  /** A name held only by soft-deleted users can be used again. */
  lemma DeletedNameReusable(data: UserCreateSchema, hash: string -> string, uuid: nat, now: DateTime, table: seq<User>)
    requires forall u :: u in table && u.name == data.name ==> !Live(u)
    ensures CreateUser(data, hash, uuid, now, table).Success?
  {
  }

  lemma CreatePreservesInvariant(data: UserCreateSchema, hash: string -> string, uuid: nat, now: DateTime, table: seq<User>)
    requires Wf(table)
    ensures var r := CreateUser(data, hash, uuid, now, table); r.Success? ==> Wf(r.value.0)
  {
    var r := CreateUser(data, hash, uuid, now, table);
    if r.Success? {
      var t := r.value.0;
      var u := r.value.1;
      forall i, j | 0 <= i < |t| && 0 <= j < |t| && i != j ensures t[i].base.id != t[j].base.id {
        if i == |table| { assert t[j] in table; } else if j == |table| { assert t[i] in table; }
      }
      forall i, j | 0 <= i < |t| && 0 <= j < |t| && i != j && Live(t[i]) && Live(t[j]) ensures t[i].name != t[j].name {
        if i == |table| { assert t[j] in table; } else if j == |table| { assert t[i] in table; }
      }
    }
  }

  // ---------------------------------------------------------------------------
  // update_by_id, change_status, delete_by_id
  // ---------------------------------------------------------------------------

  /** The `onupdate` rule for `utime`: a row that changed carries the flush
      time, and a row whose columns other than `utime` are unchanged is the
      stored row itself. */
  ghost predicate Stamped(before: User, after: User, now: DateTime) {
    && (after != before ==> after.base.utime == now)
    && (after.(base := after.base.(utime := before.base.utime)) == before ==> after == before)
  }

  /** `setattr` of new values followed by the flush: `utime` is refreshed by
      its `onupdate` only when some column actually changed. */
  function Commit(before: User, after: User, now: DateTime): (r: User)
    requires after.base.utime == before.base.utime
    ensures after == before ==> r == before
    ensures after != before ==> r.base.utime == now
    ensures r.(base := r.base.(utime := after.base.utime)) == after
    ensures Stamped(before, r, now)
  {
    if after == before then before else after.(base := after.base.(utime := now))
  }

  function OrElse<T>(given: Option<T>, current: Option<T>): Option<T> {
    if given.Some? then given else current
  }

  /** Overwriting every field of `data` that is not None. */
  function ApplyUpdate(u: User, data: UserUpdateSchema): User {
    u.(name := data.name.GetOr(u.name),
       nickname := OrElse(data.nickname, u.nickname),
       gender := data.gender.GetOr(u.gender),
       email := OrElse(data.email, u.email),
       phone := OrElse(data.phone, u.phone),
       avatar := OrElse(data.avatar, u.avatar),
       address := OrElse(data.address, u.address),
       introduce := OrElse(data.introduce, u.introduce))
  }

  /** What an update promises: a field given a value takes it, a field left
      None keeps its value, and nothing else but `utime` changes. */
  ghost predicate UpdatedFrom(before: User, after: User, data: UserUpdateSchema) {
    && (data.name.Some? ==> after.name == data.name.value) && (data.name.None? ==> after.name == before.name)
    && (data.nickname.Some? ==> after.nickname == data.nickname) && (data.nickname.None? ==> after.nickname == before.nickname)
    && (data.gender.Some? ==> after.gender == data.gender.value) && (data.gender.None? ==> after.gender == before.gender)
    && (data.email.Some? ==> after.email == data.email) && (data.email.None? ==> after.email == before.email)
    && (data.phone.Some? ==> after.phone == data.phone) && (data.phone.None? ==> after.phone == before.phone)
    && (data.avatar.Some? ==> after.avatar == data.avatar) && (data.avatar.None? ==> after.avatar == before.avatar)
    && (data.address.Some? ==> after.address == data.address) && (data.address.None? ==> after.address == before.address)
    && (data.introduce.Some? ==> after.introduce == data.introduce) && (data.introduce.None? ==> after.introduce == before.introduce)
    && after.hashedPassword == before.hashedPassword && after.rid == before.rid
    && after.base.(utime := before.base.utime) == before.base
  }

  lemma CommitUpdateSemantics(u: User, data: UserUpdateSchema, now: DateTime)
    ensures UpdatedFrom(u, Commit(u, ApplyUpdate(u, data), now), data)
    ensures Stamped(u, Commit(u, ApplyUpdate(u, data), now), now)
  {
  }

  /** The body of `update_by_id` once the name check has been evaluated. */
  function UpdateGiven(id: int, data: UserUpdateSchema, nameOk: bool, now: DateTime, fields: set<string>, table: seq<User>)
    : Result<(seq<User>, User), Exception>
    requires ModelFields(fields)
  {
    match FindObj(IdQuery(id), fields, table)
    case None => Failure(ApiException(UserNotFound))
    case Some(i) =>
      if !nameOk then Failure(ApiException(NameTaken))
      else
        var u := Commit(table[i], ApplyUpdate(table[i], data), now);
        Success((table[i := u], u))
  }

  /** `update_by_id` as written, with `check_name` accepting the empty name. */
  function UpdateByIdAsWritten(id: int, data: UserUpdateSchema, now: DateTime, fields: set<string>, table: seq<User>)
    : (r: Result<(seq<User>, User), Exception>)
    requires ModelFields(fields)
    ensures data.name != Some("") ==> r == UpdateById(id, data, now, fields, table)
    ensures data.name == Some("") && (forall u :: u in table && Live(u) ==> u.base.id != id) ==>
      r == Failure(ApiException("用户不存在"))
    ensures data.name == Some("") && (exists u :: u in table && Live(u) && u.base.id == id) ==>
      r.Success? && r.value.1.name == ""
    ensures data.name == Some("") && (exists u :: u in table && Live(u) && u.base.id == id) ==>
      && FindObj(IdQuery(id), fields, table).Some?
      && var i := FindObj(IdQuery(id), fields, table).value;
         && Live(table[i]) && table[i].base.id == id
         && r.value.0 == table[i := r.value.1]
         && UpdatedFrom(table[i], r.value.1, data)
         && Stamped(table[i], r.value.1, now)
  {
    var f := FindObj(IdQuery(id), fields, table);
    assert f.Some? ==> && UpdatedFrom(table[f.value], Commit(table[f.value], ApplyUpdate(table[f.value], data), now), data)
                       && Stamped(table[f.value], Commit(table[f.value], ApplyUpdate(table[f.value], data), now), now) by {
      if f.Some? { CommitUpdateSemantics(table[f.value], data, now); }
    }
    LiveIdFound(id, fields, table);
    IdQuerySelects(id);
    assert Restrict(IdQuery(id), fields) == IdQuery(id);
    UpdateGiven(id, data, CheckName(id, data.name, fields, table), now, fields, table)
  }

  /** `update_by_id`: a missing or soft-deleted id and a name held by another
      live user are refused; otherwise the user's row alone is rewritten,
      taking every field the update gives a value. */
  function UpdateById(id: int, data: UserUpdateSchema, now: DateTime, fields: set<string>, table: seq<User>)
    : (r: Result<(seq<User>, User), Exception>)
    requires ModelFields(fields)
    ensures (forall u :: u in table && Live(u) ==> u.base.id != id) ==> r == Failure(ApiException("用户不存在"))
    ensures r.Success? ==> FindObj(IdQuery(id), fields, table).Some?
    ensures r.Success? ==> var i := FindObj(IdQuery(id), fields, table).value;
      && Live(table[i]) && table[i].base.id == id
      && r.value.0 == table[i := r.value.1]
      && UpdatedFrom(table[i], r.value.1, data)
      && Stamped(table[i], r.value.1, now)
    ensures (&& LiveNamesUnique(table) && data.name.Some?
             && (exists u :: u in table && Live(u) && u.base.id == id)
             && (exists v :: v in table && Live(v) && v.name == data.name.value && v.base.id != id)) ==>
      r == Failure(ApiException("用户名已存在，请换个用户名"))
    ensures (&& LiveNamesUnique(table)
             && (exists u :: u in table && Live(u) && u.base.id == id)
             && (data.name.None? || forall v :: v in table && Live(v) && v.name == data.name.value ==> v.base.id == id)) ==>
      r.Success?
  {
    assert Restrict(IdQuery(id), fields) == IdQuery(id);
    IdQuerySelects(id);
    LiveIdFound(id, fields, table);
    var f := FindObj(IdQuery(id), fields, table);
    assert f.Some? ==> && UpdatedFrom(table[f.value], Commit(table[f.value], ApplyUpdate(table[f.value], data), now), data)
                       && Stamped(table[f.value], Commit(table[f.value], ApplyUpdate(table[f.value], data), now), now) by {
      if f.Some? { CommitUpdateSemantics(table[f.value], data, now); }
    }
    UpdateGiven(id, data, CheckNameCorrected(id, data.name, fields, table), now, fields, table)
  }

  /** An update that gives no field a value changes nothing. */
  lemma EmptyUpdateChangesNothing(id: int, now: DateTime, fields: set<string>, table: seq<User>)
    requires ModelFields(fields)
    ensures var r := UpdateById(id, EmptyUpdate, now, fields, table); r.Success? ==> r.value.0 == table
  {
  }

  lemma UpdatePreservesInvariant(id: int, data: UserUpdateSchema, now: DateTime, fields: set<string>, table: seq<User>)
    requires ModelFields(fields) && Wf(table)
    ensures var r := UpdateById(id, data, now, fields, table); r.Success? ==> Wf(r.value.0)
  {
    var r := UpdateById(id, data, now, fields, table);
    if r.Success? {
      var i := FindObj(IdQuery(id), fields, table).value;
      var t := r.value.0;
      var u := r.value.1;
      assert CheckNameCorrected(id, data.name, fields, table);
      forall j, k | 0 <= j < |t| && 0 <= k < |t| && j != k && Live(t[j]) && Live(t[k]) ensures t[j].name != t[k].name {
        if j == i && data.name.Some? {
          assert t[k] in table && t[k].base.id != id;
        } else if k == i && data.name.Some? {
          assert t[j] in table && t[j].base.id != id;
        }
      }
    }
  }

  /** `change_status`: a missing or soft-deleted id is refused; otherwise the
      user's `enable` takes the given value and nothing else but `utime` changes. */
  function ChangeStatus(id: int, enable: bool, now: DateTime, fields: set<string>, table: seq<User>)
    : (r: Result<(seq<User>, User), Exception>)
    requires ModelFields(fields)
    ensures (forall u :: u in table && Live(u) ==> u.base.id != id) ==> r == Failure(ApiException("用户不存在"))
    ensures (exists u :: u in table && Live(u) && u.base.id == id) ==> r.Success?
    ensures r.Success? ==> FindObj(IdQuery(id), fields, table).Some?
    ensures r.Success? ==> var i := FindObj(IdQuery(id), fields, table).value;
      && Live(table[i]) && table[i].base.id == id
      && r.value.0 == table[i := r.value.1]
      && r.value.1.base.enable == enable
      && r.value.1.(base := r.value.1.base.(enable := table[i].base.enable, utime := table[i].base.utime)) == table[i]
      && Stamped(table[i], r.value.1, now)
      && (enable == table[i].base.enable ==> r.value.1 == table[i])
      && (enable != table[i].base.enable ==> r.value.1.base.utime == now)
  {
    assert Restrict(IdQuery(id), fields) == IdQuery(id);
    IdQuerySelects(id);
    LiveIdFound(id, fields, table);
    match FindObj(IdQuery(id), fields, table)
    case None => Failure(ApiException(UserNotFound))
    case Some(i) =>
      var u := Commit(table[i], table[i].(base := table[i].base.(enable := enable)), now);
      Success((table[i := u], u))
  }

  lemma ChangeStatusPreservesInvariant(id: int, enable: bool, now: DateTime, fields: set<string>, table: seq<User>)
    requires ModelFields(fields) && Wf(table)
    ensures var r := ChangeStatus(id, enable, now, fields, table); r.Success? ==> Wf(r.value.0)
  {
  }

  /** `delete_by_id`: a missing or already soft-deleted id is refused;
      otherwise the row is kept but marked deleted, and nothing else but
      `utime` changes. */
  function DeleteById(id: int, now: DateTime, fields: set<string>, table: seq<User>): (r: Result<seq<User>, Exception>)
    requires ModelFields(fields)
    ensures (forall u :: u in table && Live(u) ==> u.base.id != id) ==> r == Failure(ApiException("用户不存在"))
    ensures (exists u :: u in table && Live(u) && u.base.id == id) ==> r.Success?
    ensures r.Success? ==> FindObj(IdQuery(id), fields, table).Some?
    ensures r.Success? ==> var i := FindObj(IdQuery(id), fields, table).value;
      && Live(table[i]) && table[i].base.id == id
      && |r.value| == |table|
      && (forall j :: 0 <= j < |table| && j != i ==> r.value[j] == table[j])
      && !Live(r.value[i])
      && r.value[i].(base := r.value[i].base.(isDelete := false, utime := table[i].base.utime)) == table[i]
      && r.value[i].base.utime == now
  {
    assert Restrict(IdQuery(id), fields) == IdQuery(id);
    IdQuerySelects(id);
    LiveIdFound(id, fields, table);
    match FindObj(IdQuery(id), fields, table)
    case None => Failure(ApiException(UserNotFound))
    case Some(i) =>
      var u := Commit(table[i], table[i].(base := table[i].base.(isDelete := true)), now);
      Success(table[i := u])
  }

  /** After a successful delete the user can no longer be looked up. */
  lemma DeletedUserNotFound(id: int, now: DateTime, fields: set<string>, table: seq<User>)
    requires ModelFields(fields) && UniqueIds(table)
    ensures var r := DeleteById(id, now, fields, table); r.Success? ==> GetObjByQuery(IdQuery(id), fields, r.value) == None
  {
    var r := DeleteById(id, now, fields, table);
    if r.Success? {
      var t := r.value;
      assert Restrict(IdQuery(id), fields) == IdQuery(id);
      IdQuerySelects(id);
      var i := FindObj(IdQuery(id), fields, table).value;
      forall j | 0 <= j < |t| ensures !Selected(t[j], IdQuery(id)) {
        if j != i && Live(t[j]) {
          assert t[j] == table[j];
          assert table[j].base.id != table[i].base.id;
        }
      }
    }
  }

  lemma DeletePreservesInvariant(id: int, now: DateTime, fields: set<string>, table: seq<User>)
    requires ModelFields(fields) && Wf(table)
    ensures var r := DeleteById(id, now, fields, table); r.Success? ==> Wf(r.value)
  {
    var r := DeleteById(id, now, fields, table);
    if r.Success? {
      var t := r.value;
      var i := FindObj(IdQuery(id), fields, table).value;
      assert forall j :: 0 <= j < |t| ==> t[j].base.id == table[j].base.id;
      assert forall j :: 0 <= j < |t| && Live(t[j]) ==> Live(table[j]) && t[j].name == table[j].name;
    }
  }

  // ---------------------------------------------------------------------------
  // The empty-name defect of check_name
  // ---------------------------------------------------------------------------

  const Epoch: DateTime := DateTime(2024, 1, 1, 0, 0, 0, 0)

  function SampleUser(id: int, name: string): User {
    User(NewBaseColumns(id, 0, Epoch), name, None, "", Unknown, None, None, None, None, None, None)
  }

  /** A live user named "" and a live user named "b". */
  const EmptyNameTable: seq<User> := [SampleUser(1, ""), SampleUser(2, "b")]

  const RenameToEmpty: UserUpdateSchema := EmptyUpdate.(name := Some(""))

  /** The sample table is well formed and user 2 sits at position 1. */
  lemma EmptyNameTableFacts()
    ensures Wf(EmptyNameTable)
    ensures FindObj(IdQuery(2), UserColumns, EmptyNameTable) == Some(1)
  {
    var t := EmptyNameTable;
    assert Restrict(IdQuery(2), UserColumns) == IdQuery(2);
    IdQuerySelects(2);
    assert Selected(t[1], IdQuery(2));
    assert !Selected(t[0], IdQuery(2));
  }

  /** Renaming user 2 to "" is accepted by the update as written although
      user 1 is already called "", leaving two live users with one name;
      the corrected check refuses it. */
  lemma EmptyNameBreaksUniqueness()
    ensures Wf(EmptyNameTable)
    ensures UpdateByIdAsWritten(2, RenameToEmpty, Epoch, UserColumns, EmptyNameTable).Success?
    ensures !LiveNamesUnique(UpdateByIdAsWritten(2, RenameToEmpty, Epoch, UserColumns, EmptyNameTable).value.0)
    ensures UpdateById(2, RenameToEmpty, Epoch, UserColumns, EmptyNameTable) == Failure(ApiException(NameTaken))
  {
    var t := EmptyNameTable;
    EmptyNameTableFacts();
    var r := UpdateByIdAsWritten(2, RenameToEmpty, Epoch, UserColumns, t);
    assert r.value.0[0] == t[0] && r.value.0[1].name == "";
    assert t[0] in t && Live(t[0]) && t[0].name == "" && t[0].base.id != 2;
  }
}

=== FILE: wrappers.dfy ===
/** Option and Result values used throughout the model in place of Python's
    `None` and raised exceptions, and the small sequence and text helpers
    shared by several modules. */
module Wrappers {

  /** A value that may be absent (Python's `Optional[T]`). */
  datatype Option<+T> = None | Some(value: T) {

    /** The held value, or `default` when absent. */
    function GetOr(default: T): T {
      match this
      case Some(v) => v
      case None => default
    }
  }

  /** The outcome of an operation that either returns a value or raises. */
  datatype Result<+R, +E> = Success(value: R) | Failure(error: E) {

    predicate IsFailure() {
      Failure?
    }

    function PropagateFailure<U>(): Result<U, E>
      requires Failure?
    {
      Failure(error)
    }

    function Extract(): R
      requires Success?
    {
      value
    }
  }

  /** The outcome of an operation that returns nothing or raises. */
  datatype Outcome<+E> = Pass | Fail(error: E)

  /** The list comprehension `[f(x) for x in s]`. */
  function MapSeq<A, B>(s: seq<A>, f: A -> B): (r: seq<B>)
    ensures |r| == |s|
    ensures forall i :: 0 <= i < |s| ==> r[i] == f(s[i])
  {
    if |s| == 0 then [] else [f(s[0])] + MapSeq(s[1..], f)
  }

  /** The decimal digit character of `d`. */
  function Digit(d: int): char
    requires 0 <= d < 10
  {
    "0123456789"[d]
  }
}
